=== FILE: README.md ===
# Data-table component kit, modelled in Dafny

This project models the core of a React data-table kit built on a headless
table engine. The core is:

- the inline-edit cells: text, number, select, status and date;
- the row-actions cell and the status badge;
- the column factories that wire those cells into column records;
- the `useTableInstance` adapter, which owns the table's UI state;
- the composite `DataTable` view.

Each cell is modelled as a pure step function
`Step(state, event, props) -> Reaction(next, commit)`. `commit` is the value
handed to `onEdit`, if that callback fires on this event. The events are:

- the display box's double-click;
- the editor's change, key-down and blur;
- for the date cell, a picker selection and the popover closing;
- `ValueSync`, the effect that re-seeds the draft whenever the `value` prop changes.

`Edit.Run` replays a whole sequence of events under one set of props. The
trace lemmas use it to state properties over every sequence of events with
fixed props, not just one event. A change of props in mid-run is taken to be
followed at once by `ValueSync`, so a run starts again from the re-seeded
state under the new props.

JavaScript details are modelled explicitly:

- `undefined` is `None`.
- `a || b` on strings is `Js.OrElse`, with its falsy-empty-string rule.
- `??` is `Option.GetOr`.
- `Array.prototype.find` is `Js.Find`, which returns the first match.
- `slice`, including negative indices, is `Js.Slice` and `Js.SliceFrom`.

Host services are parameters of the model:

- `parseFloat` with NaN as `None`, and number `toString`: `NumberCell.Numerals`;
- the `Intl` number formatter: `Columns.NumberOptions.intl`;
- `date-fns` `format` and `new Date`: the `formatter` and `toDate` parameters.

Date equality (`!==` on `Date` objects) is the equality of an abstract type `D`.

Modules, one per file:

- `Wrappers` and `Js`: Option, plus the JavaScript idioms above.
- `Edit`: the shared event, state and replay vocabulary.
- `TextCell`, `NumberCell`, `SelectCell`, `StatusCell`, `DateCell`: the editable cells.
- `StatusBadge` and `ActionsCell`.
- `Columns`: the column factories and the cells they render.
- `TableInstance`: the state adapter and the feature-flag defaults.
- `DataTable`: render precedence, sort glyph, body rows, pager and selection banner.
- `LegacyCells`: the second text and number cells defined inside `DataTable.jsx`.

## Model

| member | source | states |
|---|---|---|
| Js.OrElse | src/columns/index.jsx:17 | `a \|\| b` on an optional string: the string itself when it is present and non-empty, otherwise the fallback |
| Js.FindIndex | src/columns/index.jsx:129 | the position `find` stops at: it satisfies the predicate, no earlier element does, and there is no position iff no element satisfies it |
| Js.Find | src/columns/index.jsx:129 | `find`: an element is found iff some element satisfies the predicate, and it is the first such element |
| Js.Slice | src/components/cells/ActionsCell.jsx:23 | `slice(start, end)`: the segment between the two positions after negative positions are counted from the end and both are clamped; empty when they cross |
| Js.SliceFrom | src/components/cells/ActionsCell.jsx:24 | `slice(start)`: the suffix from the start position, counted from the end when negative and clamped |
| Edit.RunAppend | src/components/cells/EditableTextCell.jsx:24-46 | replaying two runs of events one after the other is replaying their concatenation, commits included |
| TextCell.Step | src/components/cells/EditableTextCell.jsx:9-46 | `onEdit` fires iff an open editor is confirmed by blur or Enter with a draft that differs from the value, and it receives the draft; confirming closes the editor; Escape restores the value; typing sets the draft; the value effect re-seeds the draft; the display box reacts only to double-click |
| TextCell.Init | src/components/cells/EditableTextCell.jsx:9-15 | the cell starts closed with the value as draft; the value effect leaves it unchanged, double-click then Escape comes back to it, and double-click then blur commits nothing |
| TextCell.Display | src/components/cells/EditableTextCell.jsx:73 | the display box shows the value when truthy, else the placeholder when truthy, else "-"; it is never empty |
| TextCell.CommitsDiffer | src/components/cells/EditableTextCell.jsx:26-38 | over any run of events, every value handed to `onEdit` differs from the value, and there are at most as many commits as confirmations |
| TextCell.OpenThenEscapeIsIdentity | src/components/cells/EditableTextCell.jsx:24-38 | double-click then Escape from the settled cell commits nothing and returns the cell to its initial state |
| TextCell.EscapedEditIsForgotten | src/components/cells/EditableTextCell.jsx:24-38 | an edit abandoned with Escape leaves no trace: any later run of events gives the same commits and end state as without it |
| TextCell.TypeAndConfirm | src/components/cells/EditableTextCell.jsx:24-46 | double-click, typing `t` and confirming commits `t` exactly once iff it differs from the value, and closes the editor |
| NumberCell.Validate | src/components/cells/EditableNumberCell.jsx:31-47 | a number is accepted iff the text parses and lies within the given bounds; the accepted number is the parsed one and clears the error; the lower bound is checked first, with its own message; text that does not parse leaves the old error in place |
| NumberCell.Step | src/components/cells/EditableNumberCell.jsx:12-79 | `onEdit` fires iff an open editor is confirmed with a draft that validates to a number different from the value; that number is in bounds and is the draft's parse; confirming records the validation error; Escape restores the value's text and clears the error; typing revalidates, and clearing the input clears the error |
| NumberCell.ValueText | src/components/cells/EditableNumberCell.jsx:13 | `value?.toString() \|\| ''`: the value's text, or empty when there is no value |
| NumberCell.Init | src/components/cells/EditableNumberCell.jsx:12-19 | the cell starts closed with the value's text and no error; the value effect leaves it unchanged, and double-click then Escape comes back to it |
| NumberCell.Display | src/components/cells/EditableNumberCell.jsx:115 | the value's text when non-empty, else the placeholder when truthy, else "-" |
| NumberCell.CommitsInBounds | src/components/cells/EditableNumberCell.jsx:49-79 | over any run, every commit lies within the bounds and differs from the value; it is the parse of the starting draft, of the value's text, or of some typed text |
| NumberCell.OutOfRangeNeverCommits | src/components/cells/EditableNumberCell.jsx:36-63 | a parsable draft outside the bounds is never committed; confirming it closes the editor and leaves an error |
| NumberCell.InRangeCommitsOnce | src/components/cells/EditableNumberCell.jsx:27-79 | double-click, typing an in-range number and confirming commits it exactly once unless it equals the value, and leaves no error |
| SelectCell.MatchIndex | src/components/cells/EditableSelectCell.jsx:30 | the option found by the draft is the first whose value prints as the draft; there is none iff no option's value prints as it |
| SelectCell.Step | src/components/cells/EditableSelectCell.jsx:12-52 | `onEdit` fires iff an open editor is confirmed with a draft that differs from the value's text and names some option; it receives that first option's own value, not the draft string; Escape and the value effect reset the draft to `value?.toString() \|\| ''` |
| SelectCell.ValueText | src/components/cells/EditableSelectCell.jsx:29 | `value?.toString()`: present iff the value is, and then the value's text |
| SelectCell.ResetText | src/components/cells/EditableSelectCell.jsx:12-17 | the draft's reset text is the value's text when that is non-empty, and empty otherwise |
| SelectCell.Init | src/components/cells/EditableSelectCell.jsx:11-17 | the cell starts closed with the reset text as draft; the value effect leaves it unchanged, and double-click then Escape comes back to it |
| SelectCell.Entries | src/components/cells/EditableSelectCell.jsx:59-81 | the editor offers, in order: the select component's own empty entry showing the placeholder when it is truthy; the cell's empty "clear" entry, labelled with the placeholder or "Select...", when the cell is clearable; then one entry per option in order (value as text, label); all leading entries have the empty value |
| SelectCell.EveryEntryCommitsAnOptionOrNothing | src/components/cells/EditableSelectCell.jsx:27-80 | choosing any offered entry and confirming commits nothing or the value of an option that prints as that entry's value |
| SelectCell.Display | src/components/cells/EditableSelectCell.jsx:54-55 | the label of the first option equal to the value when non-empty, else the value's text, else the placeholder, else "-"; never empty |
| SelectCell.CommitsAreOptionValues | src/components/cells/EditableSelectCell.jsx:27-50 | over any run, whatever is typed, every commit is the value of one of the options and differs from the value |
| SelectCell.ClearingNeverCommits | src/components/cells/EditableSelectCell.jsx:27-75 | choosing the empty "clear" entry never commits when no option prints as the empty string |
| StatusBadge.Render | src/components/cells/StatusBadge.jsx:4-48 | "Unknown" iff there is no option and no truthy value; an option wins and shows its label and colour, with background "transparent" unless its own is truthy; otherwise the bare value |
| StatusBadge.RenderedText | src/components/cells/StatusBadge.jsx:4-48 | the badge reads the option's label when there is an option, else the value when truthy, else "Unknown" |
| StatusCell.Step | src/components/cells/EditableStatusCell.jsx:10-45 | `onEdit` fires iff an open editor is confirmed with a draft different from the value, and receives the draft; Escape and the value effect restore the value |
| StatusCell.Init | src/components/cells/EditableStatusCell.jsx:10-16 | the cell starts closed with the value as draft; the value effect leaves it unchanged, double-click then Escape comes back to it, and double-click then Enter commits nothing |
| StatusCell.Selected | src/components/cells/EditableStatusCell.jsx:47 | the selected option exists iff some option's value equals the value, and it is the first such option |
| StatusCell.Display | src/components/cells/EditableStatusCell.jsx:47-84 | the display box holds a badge iff some option's value equals the value, and then it is that option's badge showing its label |
| StatusCell.CommitsAreOptionValues | src/components/cells/EditableStatusCell.jsx:26-68 | when the select only offers the options' values, every commit over any run is one of them and differs from the value, and the draft stays the value or an option's value |
| DateCell.Pattern | src/components/cells/EditableDateCell.jsx:10 | the format pattern is the given one, else "MMM dd, yyyy" |
| DateCell.Init | src/components/cells/EditableDateCell.jsx:13-19 | the cell starts closed with the value as draft; the value effect leaves it unchanged, double-click then Escape comes back to it, and double-click then blur commits nothing |
| DateCell.Step | src/components/cells/EditableDateCell.jsx:13-67 | `onEdit` fires iff an open editor gets a picked date, or is confirmed with a present draft different from the value; a picked date is committed at once and closes the editor, while clearing the picker keeps it open with no draft; Escape restores the value; closing the popover commits nothing; typing is ignored |
| DateCell.Display | src/components/cells/EditableDateCell.jsx:58 | the value formatted with the pattern, else the placeholder when truthy, else "-" |
| DateCell.InputText | src/components/cells/EditableDateCell.jsx:66 | the editor input shows the formatted draft, or nothing when there is no draft |
| DateCell.CommitsArePicked | src/components/cells/EditableDateCell.jsx:31-56 | with fixed props, starting from a draft that is absent, the value, or an earlier pick, every date committed over any run of events was picked in the picker |
| ActionsCell.MaxVisible | src/components/cells/ActionsCell.jsx:18 | `maxVisible` defaults to 2 only when undefined |
| ActionsCell.ShowMoreLabel | src/components/cells/ActionsCell.jsx:19 | `showMoreLabel` defaults to "More" only when undefined |
| ActionsCell.Disabled | src/components/cells/ActionsCell.jsx:30-32 | an action without a disabling predicate is never disabled; one with a predicate is disabled exactly when the predicate holds for this row |
| ActionsCell.Visible | src/components/cells/ActionsCell.jsx:23 | the inline actions are a prefix of the action list |
| ActionsCell.Hidden | src/components/cells/ActionsCell.jsx:24 | the overflow actions are a suffix of the action list |
| ActionsCell.Partition | src/components/cells/ActionsCell.jsx:23-24 | the inline and overflow actions together are the action list in order, whatever `maxVisible` is: a prefix and the remaining suffix |
| ActionsCell.PartSizes | src/components/cells/ActionsCell.jsx:23-24 | with a non-negative cap k, min(k, n) actions are inline and max(0, n-k) are in the menu; a negative cap leaves the last min(-k, n) in the menu |
| ActionsCell.Render | src/components/cells/ActionsCell.jsx:30-77 | one inline button per visible action with its label and per-row disabled flag; the overflow menu exists iff there are hidden actions, and then carries the "more" label, the menu state and one item per hidden action |
| ActionsCell.Step | src/components/cells/ActionsCell.jsx:26-69 | every handler call passes this row to an enabled action; an inline click calls exactly the clicked visible action; a menu click calls exactly the clicked hidden action and closes the menu; the menu button toggles the menu |
| ActionsCell.EveryEnabledActionReachable | src/components/cells/ActionsCell.jsx:36-73 | every enabled action can be invoked, through its inline button or through the menu once it is opened |
| Columns.TextColumn | src/columns/index.jsx:14-20 | the record keeps the accessor key, the id is the truthy explicit id else the key, the tag is "text", and it is editable only when `isEditable` is true |
| Columns.NumberColumn | src/columns/index.jsx:37-43 | as for text columns, with tag "number" |
| Columns.DateColumn | src/columns/index.jsx:67-73 | as for text columns, with tag "date" |
| Columns.SelectColumn | src/columns/index.jsx:96-102 | same id rule, tag "select", always editable |
| Columns.StatusColumn | src/columns/index.jsx:120-126 | same id rule, tag "status", editable iff an `onEdit` callback is given |
| Columns.DefaultIdsDistinct | src/columns/index.jsx:14-17 | text columns built without explicit ids from distinct keys have distinct ids |
| Columns.ActionsColumn | src/columns/index.jsx:145-153 | no column iff `enable` is exactly false; otherwise id defaults to "actions", the header to "Actions" when absent or empty, and sorting and filtering are turned off |
| Columns.CheckboxColumn | src/columns/index.jsx:166-188 | id "select", the select-all header, sorting and filtering off, width 50 |
| Columns.ExpandColumn | src/columns/index.jsx:192-208 | id "expand", an empty header, sorting and filtering off, width 50 |
| Columns.ForwardEdit | src/columns/index.jsx:27 | the host's edit callback is called iff one was given, with the new value and the row's original record |
| Columns.TextColumnCell | src/columns/index.jsx:21-31 | an editable text column renders the text cell with the value and placeholder; otherwise the value, or "-" when it is falsy |
| Columns.NumberColumnCell | src/columns/index.jsx:44-62 | an editable number column renders the number cell with the value, placeholder and bounds; otherwise the locale-formatted value (a missing one as 0) when a format is given, else the value's text, else "-" |
| Columns.DateColumnCell | src/columns/index.jsx:74-91 | a truthy raw value becomes a date, and an absent or falsy one (0, "") becomes none; the editor gets the format as given, while the read-only span formats with the truthy format or the default, and shows "-" without a date |
| Columns.SelectColumnCell | src/columns/index.jsx:103-115 | the select cell always gets the value, the options and the placeholder, and is clearable iff `isClearable` is true |
| Columns.StatusColumnCell | src/columns/index.jsx:127-140 | with an edit callback, the status editor over the value and the options; otherwise the badge of the first option whose value equals the value, reading that option's label, and "Unknown" when no option equals it |
| Columns.ActionsColumnCell | src/columns/index.jsx:154-161 | the actions cell gets the column's actions, the row's original record, and the cap and label with their defaults |
| TableInstance.InitialPageSize | src/hooks/useTableInstance.jsx:23 | the initial page size is the given one unless it is absent or 0, in which case it is 10 |
| TableInstance.Initial | src/hooks/useTableInstance.jsx:16-25 | on mount every slice is empty, the filter is "", and pagination is on page 0 with the initial page size |
| TableInstance.Resolve | src/hooks/useTableInstance.jsx:54 | a function updater is applied to the current slice, and a plain value replaces it |
| TableInstance.DispatchFrom | src/hooks/useTableInstance.jsx:53-57 | a handler call resolves its updater against the slice of the last render and stores the result over the current state, changing only its own slice; the listener, when given, receives the stored value |
| TableInstance.Dispatch | src/hooks/useTableInstance.jsx:53-87 | a handler changes only its own slice, to the resolved value; the caller's listener is notified iff it was given, and receives exactly the value stored locally |
| TableInstance.RenderedUpdatesCompose | src/hooks/useTableInstance.jsx:53-57 | with a render between them, two function updates of a slice amount to one update with their composition |
| TableInstance.BatchedUpdateIsLost | src/hooks/useTableInstance.jsx:53-57 | within one batch, a second function update of a slice overwrites the first: the result, and what the listener receives, depend only on the second |
| TableInstance.ListenerInSync | src/hooks/useTableInstance.jsx:53-87 | after any run of handler calls, a listener's last notice is the locally held slice; it was notified iff that slice was changed, and otherwise the slice is unchanged |
| TableInstance.DistinctSlicesCommute | src/hooks/useTableInstance.jsx:53-87 | calls to the handlers of two different slices commute |
| TableInstance.ReplaceWithSameIsIdentity | src/hooks/useTableInstance.jsx:53-87 | replacing a slice with the value it already holds leaves the state unchanged |
| TableInstance.ResolveFeatures | src/hooks/useTableInstance.jsx:40-50 | sorting, filtering, global filter, column filters and pagination are on unless explicitly off; multi-sort, row selection, multi-row selection, expansion, resizing and virtualization are off unless explicitly on |
| DataTable.Banner | src/components/DataTable.jsx:443-451 | the selection banner is shown iff row selection is explicitly on and the selection map has a key, and it counts the keys |
| DataTable.Render | src/components/DataTable.jsx:242-444 | loading wins over error, error (when truthy) over empty, empty over the table; each special state uses its custom renderer when given, and the empty message defaults to "No data available"; the table shows the search box unless the global filter is off, and the pager only when pagination is explicitly on |
| DataTable.Body | src/components/DataTable.jsx:344-369 | the body has between one and two lines per row, and starts with the first row's cells |
| DataTable.PrecedenceIsFirstMatch | src/components/DataTable.jsx:242-276 | the rendering is the first state in precedence order whose condition holds, and no earlier state's condition holds |
| DataTable.PagerNeedsExplicitFlag | src/components/DataTable.jsx:375 | with pagination left undefined the engine paginates, yet the view renders no pager |
| DataTable.SortGlyph | src/components/DataTable.jsx:331-335 | no glyph area for an unsortable column; otherwise the ascending glyph iff ascending, the descending glyph iff descending, and nothing iff unsorted |
| DataTable.BodyShape | src/components/DataTable.jsx:344-369 | the body renders every row once and in order, plus one panel per expanded row that directly follows its row |
| DataTable.RenderPager | src/components/DataTable.jsx:378-436 | the pager shows the 1-based page number of the page count and the filtered row total; first and previous are disabled iff there is no previous page, next and last iff there is no next page; the sizes are 10 to 50 in steps of 10 |
| DataTable.Press | src/components/DataTable.jsx:389-416 | a disabled button does nothing; first goes to page index 0, last to the page count minus one, previous and next to the engine's neighbours |
| DataTable.PressedIffShownEnabled | src/components/DataTable.jsx:389-416 | a pager button asks the engine for something exactly when the rendered pager shows it enabled |
| DataTable.ChooseSize | src/components/DataTable.jsx:421-435 | choosing a page size asks for exactly that size, and only the offered sizes can be chosen |
| LegacyCells.TextStep | src/components/DataTable.jsx:37-77 | the second text cell as written: the draft is seeded with `value \|\| ""`, but a commit fires iff the draft differs from the raw value |
| LegacyCells.FixedTextStep | src/components/DataTable.jsx:37-77 | the same cell compared against its seed: a commit fires iff an open editor is confirmed with a draft that differs from `value \|\| ""` |
| LegacyCells.TextInit | src/components/DataTable.jsx:38-44 | the second text cell starts closed with `value \|\| ""` as draft, which the value effect keeps; opening and blurring at once commits under the code as written exactly when the value is undefined, and never under the intended reading |
| LegacyCells.UntouchedEditCommitsEmpty | src/components/DataTable.jsx:39-58 | as written, with an undefined value, a double-click followed by a blur commits the empty string |
| LegacyCells.UntouchedEditNeverCommits | src/components/DataTable.jsx:39-70 | as intended, with fixed props and from a settled cell, no run of events without typing ever commits, whatever the value |
| LegacyCells.AgreesWhenValuePresent | src/components/DataTable.jsx:37-77 | with a present value, the second text cell and the exported one agree on mode, draft text and commits |
| LegacyCells.NumberStep | src/components/DataTable.jsx:115-175 | the second number cell behaves like the exported one, except that typing only replaces the draft and leaves the error as it was |
| LegacyCells.NumberVariantCommits | src/components/DataTable.jsx:131-166 | the second number cell commits iff a confirmed draft validates to a number different from the value; that number is in bounds; Escape clears the error without committing |

## Left out

- Rendering, styling, icons, focus and select-on-open effects: these are presentation only; the model keeps what each view shows and which handler each element carries.
- The table engine's row models (sorting, filtering, paging, expansion, grouping, faceting), page count and can-previous/can-next: `DataTable.PagerInputs` and `DataTable.RowInfo` take them as inputs.
- `parseFloat`, NaN, number `toString`, `Intl.NumberFormat`, `date-fns` `format` and `new Date`: these are host functions, taken as parameters.
- The `step` prop of the number cells and the `isSearchable` option of select columns: they are passed along but have no effect on behaviour.
- StatusCell.Step: status values, option values included, are strings in the model. The source compares the draft with the row's value by strict equality, and the draft becomes the select's string once the user picks an option. So with number-valued statuses, picking the current option commits its string form, and every picked commit is a string rather than the option's value. The model does not cover that case.
- Columns.DateColumnCell / DateCell.Display: a truthy raw value that is not a date (such as "garbage") becomes an invalid date in the source, and formatting it throws a RangeError, both in the read-only span and in the editor's display and input. The model's `toDate` and `formatter` always produce a value, so it shows formatted text where the source throws.
- DateCell.CommitsArePicked / LegacyCells.UntouchedEditNeverCommits: runs keep the props fixed, and a change of `value` is taken to be re-seeded by the value effect before the next event. If the host changes `value` while the editor is open and an event arrives first, the date cell can commit the earlier value, which was never picked, and the corrected text cell can commit the stale seed. These lemmas do not cover such interleavings.
- StatusCell.CommitsAreOptionValues: holds only for change events that pick one of the options, which is all a native select over those options can produce; arbitrary change text is outside that guarantee.
- Columns.NumberColumnCell: `value || 0` also turns NaN into 0 before formatting; the model has no NaN, so only a missing value becomes 0.
- The display boxes of the second text and number cells: they use the same expressions as `TextCell.Display` and `NumberCell.Display`.
- The second number cell's error line under the input: it only shows the stored error text, which `NumberStep` keeps.
- Header cells of the checkbox and expand columns and their per-row cells: these call the engine's selection and expansion togglers, which are not part of this model.
- TableInstance.Replay: every call in a replay is taken to follow a render, as when the calls come from separate user events; two function updates to one slice within a single batch lose the first, which `TableInstance.BatchedUpdateIsLost` states for one pair of calls but no replay covers.
- A missing options bag, option list or action list: `createSelectColumn` and `createStatusColumn` have no default options bag, and the cells call `find` and `slice` on these lists, so the source throws a TypeError when any of them is missing; the model's options records always carry them.
- The select component's own placeholder entry in `SelectCell.Entries` follows the component library's behaviour (an empty entry for a truthy placeholder), which is outside the repository's code.
- `src/index.jsx`, `src/App.jsx` and the example tables: re-exports and demos.

## Findings

| source | as written | input that shows it | evidently intended | confidence | as-written member | corrected member |
|---|---|---|---|---|---|---|
| src/components/DataTable.jsx:39-65 | the text cell seeds its draft with `value \|\| ""` but commits when `editValue !== value` | `value` undefined: double-click, then blur without typing, calls `onEdit("")` | commit only when the draft differs from the text the editor was opened with | not executed | LegacyCells.UntouchedEditCommitsEmpty | LegacyCells.UntouchedEditNeverCommits |

=== FILE: actions_cell.dfy ===
/** The row-actions cell: the first `maxVisible` actions as inline buttons,
    the rest in an overflow menu, each disabled by its own per-row predicate,
    and a click handing the row to the clicked action's handler. */
module ActionsCell {
  import opened Wrappers
  import Js

  /** An action: its label and its optional disablement predicate over rows.
      Its click handler is identified by the action's position in the list. */
  datatype Action<!R> = Action(caption: string, isDisabled: Option<R -> bool>)

  datatype Props<!R> = Props(
    actions: seq<Action<R>>,
    row: R,
    maxVisible: Option<int>,
    showMoreLabel: Option<string>)

  const DefaultMaxVisible := 2
  const DefaultShowMoreLabel := "More"

  /** `maxVisible` and `showMoreLabel` default only when undefined. */
  function MaxVisible<R>(p: Props<R>): (k: int)
    ensures p.maxVisible.None? ==> k == 2
    ensures p.maxVisible.Some? ==> k == p.maxVisible.value
  {
    p.maxVisible.GetOr(DefaultMaxVisible)
  }

  function ShowMoreLabel<R>(p: Props<R>): (t: string)
    ensures p.showMoreLabel.None? ==> t == "More"
    ensures p.showMoreLabel.Some? ==> t == p.showMoreLabel.value
  {
    p.showMoreLabel.GetOr(DefaultShowMoreLabel)
  }

  /** `actions.slice(0, maxVisible)`. */
  function Visible<R>(p: Props<R>): (v: seq<Action<R>>)
    ensures |v| <= |p.actions| && v == p.actions[..|v|]
  {
    Js.Slice(p.actions, 0, MaxVisible(p))
  }

  /** `actions.slice(maxVisible)`. */
  function Hidden<R>(p: Props<R>): (h: seq<Action<R>>)
    ensures |h| <= |p.actions| && h == p.actions[|p.actions| - |h|..]
  {
    Js.SliceFrom(p.actions, MaxVisible(p))
  }

  /** The inline and overflow parts split the list in order, whatever
      `maxVisible` is: the inline part is a prefix and the overflow part
      the rest. */
  lemma Partition<R>(p: Props<R>)
    ensures Visible(p) + Hidden(p) == p.actions
    ensures Visible(p) == p.actions[..|Visible(p)|]
    ensures Hidden(p) == p.actions[|Visible(p)|..]
  {
    assert Js.RelIndex(0, |p.actions|) == 0;
  }

  /** With a non-negative cap `k` there are `min(k, n)` inline actions and
      `max(0, n - k)` in the menu; a negative cap counts back from the end,
      leaving the last `min(-k, n)` actions in the menu. */
  lemma PartSizes<R>(p: Props<R>)
    ensures var k, n := MaxVisible(p), |p.actions|;
            && (0 <= k ==> |Visible(p)| == (if k < n then k else n))
            && (0 <= k ==> |Hidden(p)| == (if n - k > 0 then n - k else 0))
            && (k < 0 ==> |Hidden(p)| == (if -k < n then -k else n))
  {
    assert Js.RelIndex(0, |p.actions|) == 0;
  }

  /** Whether an action is disabled for this row: only when it carries a
      predicate and the predicate holds. */
  predicate Disabled<R>(a: Action<R>, row: R)
    ensures a.isDisabled.None? ==> !Disabled(a, row)
    ensures a.isDisabled.Some? ==> (Disabled(a, row) <==> a.isDisabled.value(row))
  {
    a.isDisabled.Some? && a.isDisabled.value(row)
  }

  /** A button as rendered: its label and whether it is disabled. */
  datatype Button = Button(caption: string, disabled: bool)

  /** The overflow menu as rendered. */
  datatype Menu = Menu(caption: string, isOpen: bool, items: seq<Button>)

  datatype View = View(inline: seq<Button>, menu: Option<Menu>)

  function Buttons<R>(actions: seq<Action<R>>, row: R): (bs: seq<Button>)
    ensures |bs| == |actions|
    ensures forall i :: 0 <= i < |actions| ==> bs[i] == Button(actions[i].caption, Disabled(actions[i], row))
  {
    seq(|actions|, i requires 0 <= i < |actions| => Button(actions[i].caption, Disabled(actions[i], row)))
  }

  /** The cell as rendered for menu state `isOpen`. */
  function Render<R>(p: Props<R>, isOpen: bool): (v: View)
    ensures |v.inline| == |Visible(p)|
    ensures forall i :: 0 <= i < |v.inline| ==>
              v.inline[i] == Button(p.actions[i].caption, Disabled(p.actions[i], p.row))
    // the overflow menu exists iff there are hidden actions
    ensures v.menu.Some? <==> |Hidden(p)| > 0
    ensures v.menu.Some? ==> v.menu.value.caption == ShowMoreLabel(p) && v.menu.value.isOpen == isOpen
    ensures v.menu.Some? ==> |v.menu.value.items| == |p.actions| - |Visible(p)|
    ensures v.menu.Some? ==> forall j :: 0 <= j < |v.menu.value.items| ==>
              v.menu.value.items[j] == Button(p.actions[|Visible(p)| + j].caption, Disabled(p.actions[|Visible(p)| + j], p.row))
  {
    Partition(p);
    var hidden := Hidden(p);
    View(Buttons(Visible(p), p.row),
         if |hidden| > 0 then Some(Menu(ShowMoreLabel(p), isOpen, Buttons(hidden, p.row))) else None)
  }

  /** What the user does: click an inline button, click a menu item, click
      the menu button, or dismiss the menu. */
  datatype Event = ClickInline(i: nat) | ClickItem(j: nat) | ToggleMenu | DismissMenu

  /** A handler call: the action at `index` in the full list, given `row`. */
  datatype Call<R> = Call(index: nat, row: R)

  datatype Reaction<R> = Reaction(isOpen: bool, call: Option<Call<R>>)

  /** One event. A disabled button receives no click, and menu items can only
      be clicked while the menu is open. */
  function Step<R>(p: Props<R>, isOpen: bool, e: Event): (r: Reaction<R>)
    // every call hands this row to an enabled action
    ensures r.call.Some? ==> r.call.value.row == p.row && r.call.value.index < |p.actions|
                             && !Disabled(p.actions[r.call.value.index], p.row)
    // an inline click calls exactly the clicked inline action
    ensures e.ClickInline? ==>
              r.isOpen == isOpen
              && (r.call.Some? <==> e.i < |Visible(p)| && !Disabled(Visible(p)[e.i], p.row))
              && (r.call.Some? ==> r.call.value.index == e.i && p.actions[e.i] == Visible(p)[e.i])
    // a menu click calls exactly the clicked hidden action and closes the menu
    ensures e.ClickItem? ==>
              (r.call.Some? <==> isOpen && e.j < |Hidden(p)| && !Disabled(Hidden(p)[e.j], p.row))
              && (r.call.Some? ==> r.call.value.index == |Visible(p)| + e.j
                                   && p.actions[r.call.value.index] == Hidden(p)[e.j] && !r.isOpen)
              && (r.call.None? ==> r.isOpen == isOpen)
    // the menu button toggles the menu; without hidden actions there is no button
    ensures e == ToggleMenu ==> r.call.None? && r.isOpen == (if |Hidden(p)| > 0 then !isOpen else isOpen)
    ensures e == DismissMenu ==> r == Reaction(false, None)
  {
    Partition(p);
    match e
    case ClickInline(i) =>
      if i < |Visible(p)| && !Disabled(Visible(p)[i], p.row) then Reaction(isOpen, Some(Call(i, p.row)))
      else Reaction(isOpen, None)
    case ClickItem(j) =>
      if isOpen && j < |Hidden(p)| && !Disabled(Hidden(p)[j], p.row)
      then Reaction(false, Some(Call(|Visible(p)| + j, p.row)))
      else Reaction(isOpen, None)
    case ToggleMenu =>
      if |Hidden(p)| > 0 then Reaction(!isOpen, None) else Reaction(isOpen, None)
    case DismissMenu => Reaction(false, None)
  }

  /** Every enabled action can be invoked: by a click on its inline button,
      or by its menu item once the menu button has opened the menu. */
  lemma EveryEnabledActionReachable<R>(p: Props<R>, k: nat)
    requires k < |p.actions| && !Disabled(p.actions[k], p.row)
    ensures k < |Visible(p)| ==> Step(p, false, ClickInline(k)).call == Some(Call(k, p.row))
    ensures |Visible(p)| <= k ==>
              Step(p, false, ToggleMenu).isOpen
              && Step(p, true, ClickItem(k - |Visible(p)|)).call == Some(Call(k, p.row))
  {
    Partition(p);
    if |Visible(p)| <= k {
      assert Hidden(p)[k - |Visible(p)|] == p.actions[k];
    }
  }
}

=== FILE: columns.dfy ===
/** The column factories: pure constructors of the column records the table
    engine consumes, and the cell each column renders for a value. */
module Columns {
  import opened Wrappers
  import Js
  import TextCell
  import NumberCell
  import DateCell
  import SelectCell
  import StatusCell
  import StatusBadge
  import ActionsCell

  /** A column header: a label, none at all, the select-all checkbox of the
      checkbox column, or the empty header of the expand column. */
  datatype Header = Label(text: string) | NoHeader | SelectAllCheckbox | Blank

  /** A column record. `kind` is the record's `type` tag; the optional fields
      are absent from the records that do not set them. */
  datatype Column = Column(
    accessorKey: Option<string>,
    id: string,
    header: Header,
    kind: Option<string>,
    isEditable: Option<bool>,
    enableSorting: Option<bool>,
    enableColumnFilter: Option<bool>,
    size: Option<nat>)

  /** The part of a data column's options bag that shapes the record and its
      editor. `hasOnEdit` says whether an `onEdit` callback was given. */
  datatype DataOptions = DataOptions(
    id: Option<string>,
    isEditable: Option<bool>,
    hasOnEdit: bool,
    placeholder: Option<string>)

  /** The options bag a factory gets when the caller passes none. */
  const NoOptions := DataOptions(None, None, false, None)

  /** The id rule every data factory follows: the explicit id when it is
      truthy, else the accessor key, which the record also keeps. */
  predicate KeyedBy(c: Column, key: string, o: DataOptions) {
    c.accessorKey == Some(key) && c.id == (if Js.Truthy(o.id) then o.id.value else key)
  }

  /** A data column carries no sorting, filtering or width settings of its own. */
  predicate EngineDefaults(c: Column) {
    c.enableSorting.None? && c.enableColumnFilter.None? && c.size.None?
  }

  function DataColumn(tag: string, key: string, header: Header, o: DataOptions, editable: bool): Column {
    Column(Some(key), Js.OrElse(o.id, key), header, Some(tag), Some(editable), None, None, None)
  }

  /** `options.isEditable || false`. */
  predicate EditableFlag(o: DataOptions) {
    o.isEditable == Some(true)
  }

  /** Text, number and date columns are editable only when asked to. */
  function TextColumn(key: string, header: Header, o: DataOptions): (c: Column)
    ensures KeyedBy(c, key, o) && EngineDefaults(c) && c.header == header
    ensures c.kind == Some("text") && c.isEditable == Some(o.isEditable == Some(true))
  {
    DataColumn("text", key, header, o, EditableFlag(o))
  }

  function NumberColumn(key: string, header: Header, o: DataOptions): (c: Column)
    ensures KeyedBy(c, key, o) && EngineDefaults(c) && c.header == header
    ensures c.kind == Some("number") && c.isEditable == Some(o.isEditable == Some(true))
  {
    DataColumn("number", key, header, o, EditableFlag(o))
  }

  function DateColumn(key: string, header: Header, o: DataOptions): (c: Column)
    ensures KeyedBy(c, key, o) && EngineDefaults(c) && c.header == header
    ensures c.kind == Some("date") && c.isEditable == Some(o.isEditable == Some(true))
  {
    DataColumn("date", key, header, o, EditableFlag(o))
  }

  /** A select column is always editable. */
  function SelectColumn(key: string, header: Header, o: DataOptions): (c: Column)
    ensures KeyedBy(c, key, o) && EngineDefaults(c) && c.header == header
    ensures c.kind == Some("select") && c.isEditable == Some(true)
  {
    DataColumn("select", key, header, o, true)
  }

  /** A status column is editable iff an `onEdit` callback is given. */
  function StatusColumn(key: string, header: Header, o: DataOptions): (c: Column)
    ensures KeyedBy(c, key, o) && EngineDefaults(c) && c.header == header
    ensures c.kind == Some("status") && c.isEditable == Some(o.hasOnEdit)
  {
    DataColumn("status", key, header, o, o.hasOnEdit)
  }

  /** Columns built without explicit ids from distinct accessor keys have
      distinct ids, as the table engine requires. */
  lemma DefaultIdsDistinct(keys: seq<string>, header: Header)
    requires forall i, j :: 0 <= i < j < |keys| ==> keys[i] != keys[j]
    ensures var cs := seq(|keys|, i requires 0 <= i < |keys| => TextColumn(keys[i], header, NoOptions));
            forall i, j :: 0 <= i < j < |cs| ==> cs[i].id != cs[j].id
  {
  }

  /** The actions column's options bag. */
  datatype ActionsOptions<!R> = ActionsOptions(
    enable: Option<bool>,
    id: Option<string>,
    actions: seq<ActionsCell.Action<R>>,
    maxVisible: Option<int>,
    showMoreLabel: Option<string>)

  /** The actions column, or `null` when explicitly disabled. The header
      defaults to "Actions" when absent or empty, the id when not truthy. */
  function ActionsColumn<R>(header: Option<string>, o: ActionsOptions<R>): (c: Option<Column>)
    ensures c.None? <==> o.enable == Some(false)
    ensures c.Some? ==> c.value.id == Js.OrElse(o.id, "actions")
                        && c.value.header == Label(Js.OrElse(header, "Actions"))
                        && c.value.kind == Some("actions")
                        && c.value.enableSorting == Some(false) && c.value.enableColumnFilter == Some(false)
                        && c.value.accessorKey.None? && c.value.isEditable.None? && c.value.size.None?
  {
    if o.enable == Some(false) then None
    else
      var h := Js.OrElse(Some(header.GetOr("Actions")), "Actions");
      Some(Column(None, Js.OrElse(o.id, "actions"), Label(h), Some("actions"), None, Some(false), Some(false), None))
  }

  /** The row-selection column. */
  function CheckboxColumn(): (c: Column)
    ensures c.id == "select" && c.header == SelectAllCheckbox
    ensures c.enableSorting == Some(false) && c.enableColumnFilter == Some(false) && c.size == Some(50)
    ensures c.accessorKey.None? && c.kind.None? && c.isEditable.None?
  {
    Column(None, "select", SelectAllCheckbox, None, None, Some(false), Some(false), Some(50))
  }

  /** The row-expansion column. */
  function ExpandColumn(): (c: Column)
    ensures c.id == "expand" && c.header == Blank
    ensures c.enableSorting == Some(false) && c.enableColumnFilter == Some(false) && c.size == Some(50)
    ensures c.accessorKey.None? && c.kind.None? && c.isEditable.None?
  {
    Column(None, "expand", Blank, None, None, Some(false), Some(false), Some(50))
  }

  // ---------------------------------------------------------------------
  // The cells the columns render

  /** `options.onEdit?.(newValue, row.original)`: the call the host's edit
      callback receives, if there is one. */
  function ForwardEdit<V, R>(hasOnEdit: bool, newValue: V, original: R): (call: Option<(V, R)>)
    ensures call.Some? <==> hasOnEdit
    ensures call.Some? ==> call.value.0 == newValue && call.value.1 == original
  {
    if hasOnEdit then Some((newValue, original)) else None
  }

  datatype TextView = TextSpan(text: string) | TextEditor(props: TextCell.Props)

  /** A text column's cell: the editor when editable, else the value or "-". */
  function TextColumnCell(o: DataOptions, value: Option<string>): (v: TextView)
    ensures EditableFlag(o) ==> v == TextEditor(TextCell.Props(value, o.placeholder))
    ensures !EditableFlag(o) ==> v == TextSpan(Js.OrElse(value, "-"))
    ensures !EditableFlag(o) && !Js.Truthy(value) ==> v.text == "-"
  {
    if o.isEditable == Some(true) then TextEditor(TextCell.Props(value, o.placeholder))
    else TextSpan(Js.OrElse(value, "-"))
  }

  /** The number options a number column reads. `intl` is the locale number
      formatter built from `options.format`, present iff a format is given. */
  datatype NumberOptions = NumberOptions(
    min: Option<real>,
    max: Option<real>,
    intl: Option<real -> string>,
    numerals: NumberCell.Numerals)

  datatype NumberView = NumberSpan(text: string) | NumberEditor(props: NumberCell.Props)

  /** A number column's cell: the editor when editable; else the value
      formatted with the locale formatter (a missing value as 0), or without
      one the value's text, or "-". */
  function NumberColumnCell(o: DataOptions, n: NumberOptions, value: Option<real>): (v: NumberView)
    ensures EditableFlag(o) ==> v == NumberEditor(NumberCell.Props(value, o.placeholder, n.min, n.max, n.numerals))
    ensures !EditableFlag(o) && n.intl.Some? ==> v == NumberSpan(n.intl.value(value.GetOr(0.0)))
    ensures !EditableFlag(o) && n.intl.None? && value.None? ==> v == NumberSpan("-")
    ensures !EditableFlag(o) && n.intl.None? && value.Some? ==>
              v == NumberSpan(Js.OrElse(Some(n.numerals.show(value.value)), "-"))
  {
    var formatted :=
      if n.intl.Some? then n.intl.value(value.GetOr(0.0))
      else Js.OrElse(if value.Some? then Some(n.numerals.show(value.value)) else None, "-");
    if o.isEditable == Some(true) then NumberEditor(NumberCell.Props(value, o.placeholder, n.min, n.max, n.numerals))
    else NumberSpan(formatted)
  }

  datatype DateView<!D> = DateSpan(text: string) | DateEditor(props: DateCell.Props<D>)

  /** A date column's cell. A truthy raw value becomes a date (`new Date`,
      the host's `toDate`); an absent or falsy one (such as 0 or "") becomes
      no date. `truthy` is JavaScript's truthiness on raw values. The
      read-only span formats with the format option when truthy, else the
      default; the editor gets the format option as is. */
  function DateColumnCell<Raw, D>(o: DataOptions, format: Option<string>, truthy: Raw -> bool, toDate: Raw -> D,
                                  formatter: (D, string) -> string, raw: Option<Raw>): (v: DateView<D>)
    ensures EditableFlag(o) ==>
              v == DateEditor(DateCell.Props(if raw.Some? && truthy(raw.value) then Some(toDate(raw.value)) else None,
                                             o.placeholder, format, formatter))
    ensures !EditableFlag(o) && (raw.None? || !truthy(raw.value)) ==> v == DateSpan("-")
    ensures !EditableFlag(o) && raw.Some? && truthy(raw.value) ==>
              v == DateSpan(formatter(toDate(raw.value), Js.OrElse(format, DateCell.DefaultFormat)))
  {
    var date := if raw.Some? && truthy(raw.value) then Some(toDate(raw.value)) else None;
    if o.isEditable == Some(true) then DateEditor(DateCell.Props(date, o.placeholder, format, formatter))
    else DateSpan(if date.Some? then formatter(date.value, Js.OrElse(format, DateCell.DefaultFormat)) else "-")
  }

  /** A select column's cell is always the select editor. */
  function SelectColumnCell<V>(o: DataOptions, options: seq<SelectCell.SelectOption<V>>, isClearable: Option<bool>,
                               show: V -> string, value: Option<V>): (p: SelectCell.Props<V>)
    ensures p.value == value && p.options == options && p.placeholder == o.placeholder
    ensures p.isClearable <==> isClearable == Some(true)
  {
    SelectCell.Props(value, options, o.placeholder, isClearable == Some(true), show)
  }

  datatype StatusView = StatusBadgeView(badge: StatusBadge.Badge) | StatusEditor(props: StatusCell.Props)

  /** A status column's cell: the editor when an edit callback is given, else
      the badge of the first option whose value is the value, which reads
      that option's label ("Unknown" if there is none). */
  function StatusColumnCell(o: DataOptions, options: seq<StatusBadge.StatusOption>, value: Option<string>): (v: StatusView)
    ensures o.hasOnEdit ==> v == StatusEditor(StatusCell.Props(value, options))
    ensures !o.hasOnEdit && (forall i :: 0 <= i < |options| ==> Some(options[i].value) != value) ==>
              v == StatusBadgeView(StatusBadge.Unknown)
    ensures !o.hasOnEdit ==>
              v.StatusBadgeView?
              && (forall i :: 0 <= i < |options| && Some(options[i].value) == value ==> v.badge.OptionBadge?)
    ensures !o.hasOnEdit ==>
              forall i :: 0 <= i < |options| && Some(options[i].value) == value
                          && (forall j :: 0 <= j < i ==> Some(options[j].value) != value) ==>
                v.badge == StatusBadge.Render(Some(options[i]), None)
                && StatusBadge.Text(v.badge) == options[i].caption
  {
    if o.hasOnEdit then StatusEditor(StatusCell.Props(value, options))
    else StatusBadgeView(StatusBadge.Render(Js.Find(options, (opt: StatusBadge.StatusOption) => Some(opt.value) == value), None))
  }

  /** An actions column's cell: the actions cell for the row's original record. */
  function ActionsColumnCell<R>(o: ActionsOptions<R>, original: R): (p: ActionsCell.Props<R>)
    ensures p.actions == o.actions && p.row == original
    ensures ActionsCell.MaxVisible(p) == o.maxVisible.GetOr(2)
    ensures ActionsCell.ShowMoreLabel(p) == o.showMoreLabel.GetOr("More")
  {
    ActionsCell.Props(o.actions, original, o.maxVisible, o.showMoreLabel)
  }
}

=== FILE: data_table.dfy ===
/** The composite table view: which of the loading, error, empty and
    populated renderings is shown, the sort glyph in each header, the body's
    row lines, the pager, and the selection banner. Row models, page counts
    and the can-previous/can-next answers come from the table engine and are
    inputs here. */
module DataTable {
  import opened Wrappers
  import Js
  import TableInstance

  /** The view's props that decide what is rendered. A `has…Renderer` flag
      says whether a (truthy) custom renderer for that state was given. */
  datatype Props = Props(
    dataLength: nat,
    isLoading: bool,
    error: Option<string>,
    hasLoadingRenderer: bool,
    hasErrorRenderer: bool,
    hasEmptyRenderer: bool,
    emptyMessage: Option<string>,
    enableGlobalFilter: Option<bool>,
    enablePagination: Option<bool>,
    enableRowSelection: Option<bool>)

  const DefaultEmptyMessage := "No data available"

  /** What the view renders. */
  datatype View =
    | LoadingView(custom: bool)
    | ErrorView(custom: bool, message: string)
    | EmptyView(custom: bool, message: string)
    | TableView(searchBox: bool, pager: bool, banner: Option<nat>)

  /** The search box is shown unless the global filter is turned off;
      `enableGlobalFilter` defaults to true only when undefined. */
  predicate ShowsSearch(p: Props) {
    p.enableGlobalFilter.GetOr(true)
  }

  /** The pager is shown only when `enablePagination` is passed and true. */
  predicate ShowsPager(p: Props) {
    p.enablePagination == Some(true)
  }

  /** The selection banner: present iff row selection is turned on and the
      selection map has at least one key; it counts the keys. */
  function Banner(p: Props, rowSelection: map<string, bool>): (b: Option<nat>)
    ensures b.Some? <==> p.enableRowSelection == Some(true) && rowSelection != map[]
    ensures b.Some? ==> b.value == |rowSelection.Keys| && b.value > 0
  {
    if p.enableRowSelection == Some(true) && |rowSelection.Keys| > 0 then Some(|rowSelection.Keys|) else None
  }

  /** The rendering chosen: loading before error before empty before the
      table, each special state using its custom renderer when given. */
  function Render(p: Props, rowSelection: map<string, bool>): (v: View)
    ensures p.isLoading ==> v == LoadingView(p.hasLoadingRenderer)
    ensures !p.isLoading && Js.Truthy(p.error) ==> v == ErrorView(p.hasErrorRenderer, p.error.value)
    ensures !p.isLoading && !Js.Truthy(p.error) && p.dataLength == 0 ==>
              v == EmptyView(p.hasEmptyRenderer, p.emptyMessage.GetOr(DefaultEmptyMessage))
    ensures v.TableView? <==> !p.isLoading && !Js.Truthy(p.error) && p.dataLength > 0
    ensures v.TableView? ==> v.searchBox == ShowsSearch(p) && v.pager == ShowsPager(p)
                             && v.banner == Banner(p, rowSelection)
  {
    if p.isLoading then LoadingView(p.hasLoadingRenderer)
    else if p.error.Some? && p.error.value != "" then ErrorView(p.hasErrorRenderer, p.error.value)
    else if p.dataLength == 0 then EmptyView(p.hasEmptyRenderer, p.emptyMessage.GetOr(DefaultEmptyMessage))
    else TableView(ShowsSearch(p), ShowsPager(p), Banner(p, rowSelection))
  }

  /** Which state a rendering is in, ranked by precedence. */
  function Rank(v: View): nat {
    match v
    case LoadingView(_) => 0
    case ErrorView(_, _) => 1
    case EmptyView(_, _) => 2
    case TableView(_, _, _) => 3
  }

  /** The rendering is the first state, in precedence order, whose condition
      holds: none of the earlier states' conditions holds. */
  lemma PrecedenceIsFirstMatch(p: Props, rowSelection: map<string, bool>)
    ensures var r := Rank(Render(p, rowSelection));
            && (r > 0 ==> !p.isLoading)
            && (r > 1 ==> !Js.Truthy(p.error))
            && (r > 2 ==> p.dataLength > 0)
            && (r < 3 ==> [p.isLoading, Js.Truthy(p.error), p.dataLength == 0][r])
  {
  }

  /** The adapter turns pagination on by default, yet the pager is shown only
      when `enablePagination` is passed explicitly. */
  lemma PagerNeedsExplicitFlag(p: Props, o: TableInstance.FeatureOptions, rowSelection: map<string, bool>)
    requires !p.isLoading && !Js.Truthy(p.error) && p.dataLength > 0
    requires p.enablePagination.None? && o.enablePagination == p.enablePagination
    ensures TableInstance.ResolveFeatures(o).pagination
    ensures !Render(p, rowSelection).pager
  {
  }

  /** A column's sort state, as the engine reports it. */
  datatype SortState = Unsorted | Ascending | Descending

  const AscendingGlyph := "🔼"
  const DescendingGlyph := "🔽"

  /** The glyph area of a header: absent for a column that cannot be sorted;
      otherwise the direction's glyph, empty when unsorted. */
  function SortGlyph(canSort: bool, sorted: SortState): (g: Option<string>)
    ensures g.None? <==> !canSort
    ensures g.Some? ==> (g.value == "🔼" <==> sorted == Ascending)
    ensures g.Some? ==> (g.value == "🔽" <==> sorted == Descending)
    ensures g.Some? ==> (g.value == "" <==> sorted == Unsorted)
  {
    if !canSort then None
    else
      match sorted
      case Ascending => Some(AscendingGlyph)
      case Descending => Some(DescendingGlyph)
      case Unsorted => Some("")
  }

  /** A row of the engine's row model: its id and whether it is expanded. */
  datatype RowInfo = RowInfo(id: string, expanded: bool)

  /** A line of the table body: a row's cells, or its expansion panel. */
  datatype Line = Cells(id: string) | Panel(id: string)

  /** The body: each row's cells, followed by its panel when expanded. */
  function Body(rows: seq<RowInfo>): (lines: seq<Line>)
    ensures |rows| <= |lines| <= 2 * |rows|
    ensures |rows| > 0 ==> lines[0] == Cells(rows[0].id)
    decreases |rows|
  {
    if |rows| == 0 then []
    else [Cells(rows[0].id)] + (if rows[0].expanded then [Panel(rows[0].id)] else []) + Body(rows[1..])
  }

  /** The number of expanded rows. */
  function ExpandedCount(rows: seq<RowInfo>): nat
    decreases |rows|
  {
    if |rows| == 0 then 0 else (if rows[0].expanded then 1 else 0) + ExpandedCount(rows[1..])
  }

  /** The ids of the row lines, in order. */
  function CellIds(lines: seq<Line>): seq<string>
    decreases |lines|
  {
    if |lines| == 0 then []
    else (if lines[0].Cells? then [lines[0].id] else []) + CellIds(lines[1..])
  }

  lemma CellIdsAppend(a: seq<Line>, b: seq<Line>)
    ensures CellIds(a + b) == CellIds(a) + CellIds(b)
    decreases |a|
  {
    if |a| == 0 {
      assert a + b == b;
    } else {
      assert (a + b)[1..] == a[1..] + b;
      CellIdsAppend(a[1..], b);
    }
  }

  /** The body renders every row of the row model once, in order, plus one
      panel per expanded row, and every panel directly follows its row. */
  lemma {:induction false} BodyShape(rows: seq<RowInfo>)
    ensures |Body(rows)| == |rows| + ExpandedCount(rows)
    ensures CellIds(Body(rows)) == seq(|rows|, i requires 0 <= i < |rows| => rows[i].id)
    ensures forall k :: 0 <= k < |Body(rows)| && Body(rows)[k].Panel? ==>
              k > 0 && Body(rows)[k - 1] == Cells(Body(rows)[k].id)
    decreases |rows|
  {
    if |rows| > 0 {
      BodyShape(rows[1..]);
      var head := [Cells(rows[0].id)] + (if rows[0].expanded then [Panel(rows[0].id)] else []);
      var tail := Body(rows[1..]);
      assert Body(rows) == head + tail;
      CellIdsAppend(head, tail);
      assert CellIds(head) == [rows[0].id] by {
        if rows[0].expanded {
          assert head[1..] == [Panel(rows[0].id)];
          assert head[1..][1..] == [];
        } else {
          assert head[1..] == [];
        }
      }
      assert seq(|rows|, i requires 0 <= i < |rows| => rows[i].id)
          == [rows[0].id] + seq(|rows[1..]|, i requires 0 <= i < |rows[1..]| => rows[1..][i].id);
      forall k | 0 <= k < |Body(rows)| && Body(rows)[k].Panel?
        ensures k > 0 && Body(rows)[k - 1] == Cells(Body(rows)[k].id)
      {
        if k >= |head| {
          var t := k - |head|;
          assert tail[t] == Body(rows)[k];
          assert t > 0;
          assert Body(rows)[k - 1] == tail[t - 1];
        }
      }
    }
  }

  /** The engine's paging answers the pager reads. */
  datatype PagerInputs = PagerInputs(
    pageIndex: int,
    pageSize: int,
    pageCount: int,
    filteredRowCount: nat,
    canPreviousPage: bool,
    canNextPage: bool)

  /** The page sizes offered. */
  const PageSizes: seq<int> := [10, 20, 30, 40, 50]

  datatype Pager = Pager(
    pageNumber: int,
    pageCount: int,
    totalRows: nat,
    firstDisabled: bool,
    previousDisabled: bool,
    nextDisabled: bool,
    lastDisabled: bool,
    pageSize: int,
    sizes: seq<int>)

  /** The pager: the 1-based page number of the page count, the filtered row
      total, the four buttons (first/previous disabled when there is no
      previous page, next/last when there is no next page) and the sizes. */
  function RenderPager(i: PagerInputs): (pg: Pager)
    ensures pg.pageNumber == i.pageIndex + 1 && pg.pageCount == i.pageCount
    ensures pg.totalRows == i.filteredRowCount
    ensures pg.firstDisabled == pg.previousDisabled == !i.canPreviousPage
    ensures pg.nextDisabled == pg.lastDisabled == !i.canNextPage
    ensures pg.pageSize == i.pageSize
    ensures pg.sizes == [10, 20, 30, 40, 50]
  {
    Pager(i.pageIndex + 1, i.pageCount, i.filteredRowCount,
          !i.canPreviousPage, !i.canPreviousPage, !i.canNextPage, !i.canNextPage, i.pageSize, PageSizes)
  }

  datatype PagerButton = First | Previous | Next | Last

  /** What the pager asks the engine to do. */
  datatype Request = SetPageIndex(index: int) | PreviousPage | NextPage | SetPageSize(size: int)

  /** A press on a pager button; a disabled button receives no press. */
  function Press(i: PagerInputs, b: PagerButton): (r: Option<Request>)
    ensures r.None? <==> ((b == First || b == Previous) && !i.canPreviousPage)
                         || ((b == Next || b == Last) && !i.canNextPage)
    ensures b == First && r.Some? ==> r.value == SetPageIndex(0)
    ensures b == Last && r.Some? ==> r.value == SetPageIndex(i.pageCount - 1)
    ensures b == Previous && r.Some? ==> r.value == PreviousPage
    ensures b == Next && r.Some? ==> r.value == NextPage
  {
    match b
    case First => if i.canPreviousPage then Some(SetPageIndex(0)) else None
    case Previous => if i.canPreviousPage then Some(PreviousPage) else None
    case Next => if i.canNextPage then Some(NextPage) else None
    case Last => if i.canNextPage then Some(SetPageIndex(i.pageCount - 1)) else None
  }

  /** Choosing an entry of the page-size select asks for that size; the
      select offers no other. */
  function ChooseSize(size: int): (r: Option<Request>)
    ensures r.Some? <==> size in {10, 20, 30, 40, 50}
    ensures r.Some? ==> r.value == SetPageSize(size)
  {
    if size in PageSizes then Some(SetPageSize(size)) else None
  }

  /** Whether a button is shown disabled in a rendered pager. */
  predicate ShownDisabled(pg: Pager, b: PagerButton) {
    match b
    case First => pg.firstDisabled
    case Previous => pg.previousDisabled
    case Next => pg.nextDisabled
    case Last => pg.lastDisabled
  }

  /** A press asks the engine for something exactly when the rendered pager
      shows that button enabled. */
  lemma PressedIffShownEnabled(i: PagerInputs, b: PagerButton)
    ensures Press(i, b).Some? <==> !ShownDisabled(RenderPager(i), b)
  {
  }
}

=== FILE: date_cell.dfy ===
/** The inline-editable date cell. The editor is a read-only input inside a
    popover holding a date picker: picking a date commits it at once, blur
    and Enter commit a changed draft, Escape discards it, and closing the
    popover just leaves the editor.

    Dates are a type parameter `D` whose equality is the identity of the
    host's date objects, and formatting is the host's `format`. */
module DateCell {
  import opened Wrappers
  import opened Edit
  import Js

  const DefaultFormat := "MMM dd, yyyy"

  datatype Props<!D> = Props(
    value: Option<D>,
    placeholder: Option<string>,
    format: Option<string>,
    formatter: (D, string) -> string)

  /** The events the date editor sees: the common ones (its input ignores
      typing), a picker selection (`None` when the picker is cleared), and
      the popover closing. */
  datatype DateEvent<D> = Common(e: Event) | Pick(date: Option<D>) | Close

  type State<D> = EditState<Option<D>>

  /** The format pattern in use: the given one, else the default. */
  function Pattern<D>(p: Props<D>): (f: string)
    ensures p.format.Some? ==> f == p.format.value
    ensures p.format.None? ==> f == DefaultFormat
  {
    p.format.GetOr(DefaultFormat)
  }

  /** The settled cell: closed, with the value as draft. The value effect
      leaves it as it is, opening and escaping comes back to it, and opening
      and confirming at once commits nothing. */
  function Init<D(==)>(p: Props<D>): (s: State<D>)
    ensures !s.editing && s.draft == p.value
    ensures Step(s, Common(ValueSync), p) == Reaction(s, None)
    ensures Step(Step(s, Common(DoubleClick), p).next, Common(KeyDown(Escape)), p) == Reaction(s, None)
    ensures Step(Step(s, Common(DoubleClick), p).next, Common(Blur), p).commit.None?
  {
    EditState(false, p.value)
  }

  /** The confirmations of the date editor: blur and Enter on its input. */
  predicate IsDateConfirm<D>(e: DateEvent<D>) {
    e.Common? && IsConfirm(e.e)
  }

  function Step<D(==)>(s: State<D>, e: DateEvent<D>, p: Props<D>): (r: Reaction<State<D>, D>)
    // a commit fires iff an open editor gets a picked date, or is confirmed with
    // a present draft that differs from the value
    ensures r.commit.Some? <==>
              s.editing && ((e.Pick? && e.date.Some?) || (IsDateConfirm(e) && s.draft.Some? && s.draft != p.value))
    ensures r.commit.Some? && e.Pick? ==> r.commit == e.date
    ensures r.commit.Some? && !e.Pick? ==> r.commit == s.draft
    // a picked date becomes the draft and leaves the editor; clearing the picker stays
    ensures s.editing && e.Pick? ==> r.next == EditState(e.date.None?, e.date)
    ensures s.editing && IsDateConfirm(e) ==> r.next == EditState(false, s.draft)
    ensures s.editing && e == Common(KeyDown(Escape)) ==> r.next == EditState(false, p.value)
    ensures s.editing && e == Close ==> r.next == EditState(false, s.draft) && r.commit.None?
    ensures !s.editing && e == Common(DoubleClick) ==> r.next == EditState(true, s.draft)
    ensures e == Common(ValueSync) ==> r.next == EditState(s.editing, p.value)
    ensures e == Common(KeyDown(OtherKey)) || (e.Common? && e.e.Change?) ==> r.next == s
    ensures !s.editing && e != Common(DoubleClick) && e != Common(ValueSync) ==> r.next == s
  {
    match e
    case Common(ValueSync) => Reaction(s.(draft := p.value), None)
    case Common(DoubleClick) => Reaction(s.(editing := true), None)
    case Common(Change(_)) => Reaction(s, None)
    case Common(Blur) => Confirm(s, p)
    case Common(KeyDown(k)) =>
      if !s.editing then Reaction(s, None)
      else if k == Enter then Confirm(s, p)
      else if k == Escape then Reaction(EditState(false, p.value), None)
      else Reaction(s, None)
    case Pick(date) =>
      if !s.editing then Reaction(s, None)
      else if date.Some? then Reaction(EditState(false, date), date)
      else Reaction(s.(draft := None), None)
    case Close =>
      if s.editing then Reaction(s.(editing := false), None) else Reaction(s, None)
  }

  function Confirm<D(==)>(s: State<D>, p: Props<D>): Reaction<State<D>, D> {
    if !s.editing then Reaction(s, None)
    else Reaction(s.(editing := false), if s.draft.Some? && s.draft != p.value then s.draft else None)
  }

  /** What the display box shows: the formatted value, else the placeholder,
      else "-". */
  function Display<D>(p: Props<D>): (text: string)
    ensures p.value.Some? ==> text == p.formatter(p.value.value, Pattern(p))
    ensures p.value.None? && Js.Truthy(p.placeholder) ==> text == p.placeholder.value
    ensures p.value.None? && !Js.Truthy(p.placeholder) ==> text == "-"
  {
    if p.value.Some? then p.formatter(p.value.value, Pattern(p)) else Js.OrElse(p.placeholder, "-")
  }

  /** What the editor's input shows: the formatted draft, or nothing. */
  function InputText<D>(s: State<D>, p: Props<D>): (text: string)
    ensures s.draft.Some? ==> text == p.formatter(s.draft.value, Pattern(p))
    ensures s.draft.None? ==> text == ""
  {
    if s.draft.Some? then p.formatter(s.draft.value, Pattern(p)) else ""
  }

  function Stepper<D(==)>(p: Props<D>): (State<D>, DateEvent<D>) -> Reaction<State<D>, D> {
    (s, e) => Step(s, e, p)
  }

  /** The draft is absent, the value, or a date picked earlier in `picks`. */
  predicate DraftKnown<D>(p: Props<D>, s: State<D>, picks: set<D>) {
    s.draft.None? || s.draft == p.value || s.draft.value in picks
  }

  /** The dates picked in `events`. */
  function Picked<D>(events: seq<DateEvent<D>>): set<D> {
    set i | 0 <= i < |events| && events[i].Pick? && events[i].date.Some? :: events[i].date.value
  }

  /** With the props fixed and starting from a draft that is absent or the
      value, every date the cell ever commits was picked in the picker during
      the run or before it. */
  lemma {:induction false} CommitsArePicked<D>(p: Props<D>, s: State<D>, events: seq<DateEvent<D>>, earlier: set<D>)
    requires DraftKnown(p, s, earlier)
    ensures forall c :: c in Run(Stepper(p), s, events).commits ==> c in earlier + Picked(events)
    decreases |events|
  {
    if |events| > 0 {
      var r := Step(s, events[0], p);
      var now := earlier + (if events[0].Pick? && events[0].date.Some? then {events[0].date.value} else {});
      assert DraftKnown(p, r.next, now);
      CommitsArePicked(p, r.next, events[1..], now);
      assert Picked(events[1..]) <= Picked(events) by {
        forall d | d in Picked(events[1..]) ensures d in Picked(events) {
          var i :| 0 <= i < |events[1..]| && events[1..][i].Pick? && events[1..][i].date == Some(d);
          assert events[i + 1] == events[1..][i];
        }
      }
      if events[0].Pick? && events[0].date.Some? {
        assert events[0].date.value in Picked(events);
      }
    }
  }
}

=== FILE: edit.dfy ===
/** Vocabulary shared by the inline-edit cells: the events a cell can see,
    the state every cell keeps, what one event produces, and the replay of
    a whole sequence of events. */
module Edit {
  import opened Wrappers

  /** The keys the cells distinguish; every other key is `OtherKey`. */
  datatype Key = Enter | Escape | OtherKey

  /** The events an editable cell reacts to.
      `ValueSync` is the effect that runs when the `value` prop changes: the
      new value is the one in the props passed alongside the event. */
  datatype Event =
    | DoubleClick
    | Change(text: string)
    | KeyDown(key: Key)
    | Blur
    | ValueSync

  /** Blur and Enter are the two ways an edit is confirmed. */
  predicate IsConfirm(e: Event) {
    e == Blur || e == KeyDown(Enter)
  }

  /** The number of confirmations (blur or Enter) among `events`. */
  function Confirmations(events: seq<Event>): nat
    decreases |events|
  {
    if |events| == 0 then 0
    else (if IsConfirm(events[0]) then 1 else 0) + Confirmations(events[1..])
  }

  /** The local state of a cell: whether the editor is shown and the draft. */
  datatype EditState<T> = EditState(editing: bool, draft: T)

  /** What one event does: the next state, and the value handed to the
      `onEdit` callback if it fired. */
  datatype Reaction<S, C> = Reaction(next: S, commit: Option<C>)

  /** The end state and the commits, in order, of a run of events. */
  datatype Trace<S, C> = Trace(last: S, commits: seq<C>)

  /** Feeds `events` one after another to `step`, starting in `s`. The cells
      pass a `step` with their props bound, so a run keeps the props fixed. */
  function Run<S, E, C>(step: (S, E) -> Reaction<S, C>, s: S, events: seq<E>): (t: Trace<S, C>)
    ensures |t.commits| <= |events|
    decreases |events|
  {
    if |events| == 0 then Trace(s, [])
    else
      var r := step(s, events[0]);
      var rest := Run(step, r.next, events[1..]);
      Trace(rest.last, (if r.commit.Some? then [r.commit.value] else []) + rest.commits)
  }

  /** Replaying `a + b` is replaying `a` and then `b` from where `a` ended. */
  lemma {:induction false} RunAppend<S, E, C>(step: (S, E) -> Reaction<S, C>, s: S, a: seq<E>, b: seq<E>)
    ensures Run(step, s, a + b).last == Run(step, Run(step, s, a).last, b).last
    ensures Run(step, s, a + b).commits == Run(step, s, a).commits + Run(step, Run(step, s, a).last, b).commits
    decreases |a|
  {
    if |a| == 0 {
      assert a + b == b;
    } else {
      var r := step(s, a[0]);
      assert (a + b)[0] == a[0];
      assert (a + b)[1..] == a[1..] + b;
      RunAppend(step, r.next, a[1..], b);
    }
  }
}

=== FILE: js.dfy ===
/** The few pieces of JavaScript semantics the components lean on:
    falsy fallback with `||` on strings, `Array.prototype.find`, and
    `Array.prototype.slice` with its negative-index convention. */
module Js {
  import opened Wrappers

  /** A possibly-absent string is truthy iff it is present and non-empty. */
  predicate Truthy(s: Option<string>) {
    s.Some? && s.value != ""
  }

  /** `a || b` for a possibly-absent string `a`. */
  function OrElse(a: Option<string>, b: string): (r: string)
    ensures Truthy(a) ==> r == a.value
    ensures !Truthy(a) ==> r == b
  {
    if a.Some? && a.value != "" then a.value else b
  }

  /** Index of the first element satisfying `p` (the search behind `find`). */
  function FindIndex<T>(s: seq<T>, p: T -> bool): (r: Option<nat>)
    ensures r.Some? ==> r.value < |s| && p(s[r.value])
    ensures r.Some? ==> forall j :: 0 <= j < r.value ==> !p(s[j])
    ensures r.None? <==> forall j :: 0 <= j < |s| ==> !p(s[j])
    decreases |s|
  {
    if |s| == 0 then None
    else if p(s[0]) then Some(0)
    else
      match FindIndex(s[1..], p)
      case None => None
      case Some(i) => Some(i + 1)
  }

  /** `s.find(p)`: the first element satisfying `p`, or `undefined`. */
  function Find<T>(s: seq<T>, p: T -> bool): (r: Option<T>)
    ensures r.Some? <==> exists j :: 0 <= j < |s| && p(s[j])
    ensures r.Some? ==> p(r.value) && r.value in s
    ensures r.Some? ==> exists i :: 0 <= i < |s| && s[i] == r.value && forall j :: 0 <= j < i ==> !p(s[j])
  {
    match FindIndex(s, p)
    case None => None
    case Some(i) => Some(s[i])
  }

  /** How `slice` resolves a position: a negative one counts back from the
      end, and the result is clamped to `[0, len]`. */
  function RelIndex(k: int, len: nat): (r: nat)
    ensures r <= len
    ensures 0 <= k ==> r == if k < len then k else len
    ensures k < 0 ==> r == if len + k < 0 then 0 else len + k
  {
    if k < 0 then (if len + k < 0 then 0 else len + k)
    else if k < len then k else len
  }

  /** `s.slice(start, end)`. */
  function Slice<T>(s: seq<T>, start: int, end: int): (r: seq<T>)
    ensures RelIndex(start, |s|) <= RelIndex(end, |s|) ==>
              r == s[RelIndex(start, |s|)..RelIndex(end, |s|)]
    ensures RelIndex(end, |s|) < RelIndex(start, |s|) ==> r == []
  {
    var a := RelIndex(start, |s|);
    var b := RelIndex(end, |s|);
    if a <= b then s[a..b] else []
  }

  /** `s.slice(start)`. */
  function SliceFrom<T>(s: seq<T>, start: int): (r: seq<T>)
    ensures r == s[RelIndex(start, |s|)..]
  {
    s[RelIndex(start, |s|)..]
  }
}

=== FILE: legacy_cells.dfy ===
/** The second variant of the text and number cells, defined next to the
    composite view. The text variant keeps its draft as a string, seeding it
    with `value || ""`; the number variant does not validate while typing. */
module LegacyCells {
  import opened Wrappers
  import opened Edit
  import Js
  import TextCell
  import NumberCell

  // ---------------------------------------------------------------------
  // Text cell

  type TextState = EditState<string>

  /** The text the draft is seeded and reset with: `value || ""`. */
  function Seed(p: TextCell.Props): string {
    Js.OrElse(p.value, "")
  }

  /** The settled cell: closed, with `value || ""` as draft, which the value
      effect leaves as it is. Opening and confirming at once commits under
      the reading as written exactly when the value is undefined, and never
      under the intended one. */
  function TextInit(p: TextCell.Props): (s: TextState)
    ensures !s.editing && s.draft == Seed(p)
    ensures TextStep(s, ValueSync, p) == Reaction(s, None)
    ensures TextStep(TextStep(s, DoubleClick, p).next, Blur, p).commit.Some? <==> p.value.None?
    ensures FixedTextStep(FixedTextStep(s, DoubleClick, p).next, Blur, p).commit.None?
  {
    EditState(false, Seed(p))
  }

  /** The text variant as written: the draft is compared with the raw value,
      so a string draft always differs from an undefined value. */
  function TextStep(s: TextState, e: Event, p: TextCell.Props): (r: Reaction<TextState, string>)
    ensures r.commit.Some? <==> s.editing && IsConfirm(e) && Some(s.draft) != p.value
    ensures r.commit.Some? ==> r.commit.value == s.draft
    ensures r.next == FixedTextStep(s, e, p).next
  {
    GenericTextStep(s, e, p, Some(s.draft) != p.value)
  }

  /** The text variant as evidently intended: the draft is compared with the
      text it was seeded with. */
  function FixedTextStep(s: TextState, e: Event, p: TextCell.Props): (r: Reaction<TextState, string>)
    ensures r.commit.Some? <==> s.editing && IsConfirm(e) && s.draft != Seed(p)
    ensures r.commit.Some? ==> r.commit.value == s.draft
    ensures s.editing && IsConfirm(e) ==> r.next == EditState(false, s.draft)
    ensures s.editing && e == KeyDown(Escape) ==> r.next == EditState(false, Seed(p))
    ensures s.editing && e.Change? ==> r.next == EditState(true, e.text)
    ensures e == ValueSync ==> r.next == EditState(s.editing, Seed(p))
  {
    GenericTextStep(s, e, p, s.draft != Seed(p))
  }

  /** The handlers shared by both readings; `changed` is the commit test. */
  function GenericTextStep(s: TextState, e: Event, p: TextCell.Props, changed: bool): Reaction<TextState, string> {
    match e
    case ValueSync => Reaction(s.(draft := Seed(p)), None)
    case DoubleClick => Reaction(s.(editing := true), None)
    case Change(text) =>
      if s.editing then Reaction(s.(draft := text), None) else Reaction(s, None)
    case Blur =>
      if s.editing then Reaction(s.(editing := false), if changed then Some(s.draft) else None)
      else Reaction(s, None)
    case KeyDown(k) =>
      if !s.editing then Reaction(s, None)
      else if k == Enter then Reaction(s.(editing := false), if changed then Some(s.draft) else None)
      else if k == Escape then Reaction(EditState(false, Seed(p)), None)
      else Reaction(s, None)
  }

  function TextStepper(p: TextCell.Props): (TextState, Event) -> Reaction<TextState, string> {
    (s, e) => TextStep(s, e, p)
  }

  function FixedTextStepper(p: TextCell.Props): (TextState, Event) -> Reaction<TextState, string> {
    (s, e) => FixedTextStep(s, e, p)
  }

  /** As written: with an undefined value, opening the editor and leaving it
      without typing anything commits the empty string. */
  lemma UntouchedEditCommitsEmpty()
    ensures Run(TextStepper(TextCell.Props(None, None)), TextInit(TextCell.Props(None, None)), [DoubleClick, Blur]).commits == [""]
  {
    var p := TextCell.Props(None, None);
    var f := TextStepper(p);
    var s1 := EditState(true, "");
    var s2 := EditState(false, "");
    assert f(TextInit(p), DoubleClick) == Reaction(s1, None);
    assert f(s1, Blur) == Reaction(s2, Some(""));
    assert Run(f, s2, []) == Trace(s2, []);
    assert [DoubleClick, Blur][1..] == [Blur];
    assert Run(f, s1, [Blur]) == Trace(s2, [""]);
  }

  /** As intended: with the props fixed and from a settled cell, a run
      without typing never commits, whatever the value. */
  lemma {:induction false} UntouchedEditNeverCommits(p: TextCell.Props, s: TextState, events: seq<Event>)
    requires s.draft == Seed(p)
    requires forall i :: 0 <= i < |events| ==> !events[i].Change?
    ensures Run(FixedTextStepper(p), s, events).commits == []
    ensures Run(FixedTextStepper(p), s, events).last.draft == Seed(p)
    decreases |events|
  {
    if |events| > 0 {
      var r := FixedTextStep(s, events[0], p);
      assert !events[0].Change?;
      assert r.commit.None? && r.next.draft == Seed(p);
      assert forall i :: 0 <= i < |events[1..]| ==> !events[1..][i].Change? by {
        forall i | 0 <= i < |events[1..]| ensures !events[1..][i].Change? {
          assert events[1..][i] == events[i + 1];
        }
      }
      UntouchedEditNeverCommits(p, r.next, events[1..]);
    }
  }

  /** With a present value, the second text cell agrees with the exported
      one: same mode, same draft text, same commits. */
  lemma AgreesWhenValuePresent(p: TextCell.Props, s: TextCell.State, e: Event)
    requires p.value.Some? && s.draft.Some?
    ensures var legacy := TextStep(EditState(s.editing, s.draft.value), e, p);
            var canon := TextCell.Step(s, e, p);
            && legacy.next.editing == canon.next.editing
            && (canon.next.draft.Some? ==> legacy.next.draft == canon.next.draft.value)
            && (legacy.commit.Some? <==> canon.commit.Some?)
            && (legacy.commit.Some? ==> Some(legacy.commit.value) == canon.commit.value)
  {
  }

  // ---------------------------------------------------------------------
  // Number cell

  /** The number variant: like the exported cell, except that typing only
      replaces the draft and leaves the error as it was. */
  function NumberStep(s: NumberCell.State, e: Event, p: NumberCell.Props): (r: Reaction<NumberCell.State, real>)
    ensures s.editing && e.Change? ==> r == Reaction(s.(draft := e.text), None)
    ensures !(s.editing && e.Change?) ==> r == NumberCell.Step(s, e, p)
  {
    match e
    case Change(text) =>
      if s.editing then Reaction(s.(draft := text), None) else Reaction(s, None)
    case _ => NumberCell.Step(s, e, p)
  }

  /** So the variant keeps the exported cell's guarantees on confirmation:
      it commits iff the validated number is present and differs from the
      value, and Escape clears the error without committing. */
  lemma NumberVariantCommits(s: NumberCell.State, e: Event, p: NumberCell.Props)
    ensures NumberStep(s, e, p).commit.Some? <==>
              s.editing && IsConfirm(e) && NumberCell.Validate(s.draft, p, s.error).number.Some?
              && NumberCell.Validate(s.draft, p, s.error).number != p.value
    ensures NumberStep(s, e, p).commit.Some? ==> NumberCell.InBounds(NumberStep(s, e, p).commit.value, p.min, p.max)
    ensures s.editing && e == KeyDown(Escape) ==>
              NumberStep(s, e, p).next.error.None? && NumberStep(s, e, p).commit.None?
  {
  }
}

=== FILE: number_cell.dfy ===
/** The inline-editable number cell: like the text cell, but the draft is
    parsed and checked against optional bounds, a failed check records an
    error message, and only a valid number that differs from the value is
    handed to `onEdit`. */
module NumberCell {
  import opened Wrappers
  import opened Js
  import opened Edit

  /** Number parsing (`parseFloat`, with NaN as `None`) and number-to-string
      conversion are the host's; the model takes them as given. */
  datatype Numerals = Numerals(parse: string -> Option<real>, show: real -> string)

  datatype Props = Props(
    value: Option<real>,
    placeholder: Option<string>,
    min: Option<real>,
    max: Option<real>,
    numerals: Numerals)

  /** The editor state: mode, draft text, and the validation message. */
  datatype State = State(editing: bool, draft: string, error: Option<string>)

  /** `value?.toString() || ''`: the text the draft is reset to. */
  function ValueText(p: Props): (t: string)
    ensures p.value.None? ==> t == ""
    ensures p.value.Some? ==> t == p.numerals.show(p.value.value)
  {
    if p.value.Some? then OrElse(Some(p.numerals.show(p.value.value)), "") else ""
  }

  /** The settled cell: closed, with the value's text and no error. The
      value effect leaves it as it is, and opening and escaping comes back
      to it. */
  function Init(p: Props): (s: State)
    ensures !s.editing && s.draft == ValueText(p) && s.error.None?
    ensures Step(s, ValueSync, p) == Reaction(s, None)
    ensures Step(Step(s, DoubleClick, p).next, KeyDown(Escape), p) == Reaction(s, None)
  {
    State(false, ValueText(p), None)
  }

  /** The reference definition of an acceptable number: at least `min` and
      at most `max`, each only when given. */
  predicate InBounds(n: real, min: Option<real>, max: Option<real>) {
    (min.None? || min.value <= n) && (max.None? || n <= max.value)
  }

  function AtLeastMessage(p: Props, m: real): string {
    "Value must be at least " + p.numerals.show(m)
  }

  function AtMostMessage(p: Props, m: real): string {
    "Value must be at most " + p.numerals.show(m)
  }

  /** The outcome of validation: the accepted number, and the error state. */
  datatype Validated = Validated(number: Option<real>, error: Option<string>)

  /** Parses `text` and checks the bounds, the lower one first. Text that does
      not parse leaves the previous error in place. */
  function Validate(text: string, p: Props, error: Option<string>): (v: Validated)
    // a number is accepted iff it parses and lies within the bounds, and it is the parsed one
    ensures v.number.Some? <==> p.numerals.parse(text).Some? && InBounds(p.numerals.parse(text).value, p.min, p.max)
    ensures v.number.Some? ==> v.number == p.numerals.parse(text) && v.error.None?
    ensures p.numerals.parse(text).None? ==> v.error == error
    ensures p.numerals.parse(text).Some? && p.min.Some? && p.numerals.parse(text).value < p.min.value ==>
              v.error == Some(AtLeastMessage(p, p.min.value))
    ensures p.numerals.parse(text).Some? && (p.min.None? || p.min.value <= p.numerals.parse(text).value)
            && p.max.Some? && p.max.value < p.numerals.parse(text).value ==>
              v.error == Some(AtMostMessage(p, p.max.value))
  {
    match p.numerals.parse(text)
    case None => Validated(None, error)
    case Some(n) =>
      if p.min.Some? && n < p.min.value then Validated(None, Some(AtLeastMessage(p, p.min.value)))
      else if p.max.Some? && n > p.max.value then Validated(None, Some(AtMostMessage(p, p.max.value)))
      else Validated(Some(n), None)
  }

  /** One event, with the handlers attached as in the display box and input. */
  function Step(s: State, e: Event, p: Props): (r: Reaction<State, real>)
    // a commit fires iff an open editor is confirmed with a valid number different from the value
    ensures r.commit.Some? <==>
              s.editing && IsConfirm(e) && Validate(s.draft, p, s.error).number.Some?
              && Validate(s.draft, p, s.error).number != p.value
    ensures r.commit.Some? ==> Some(r.commit.value) == p.numerals.parse(s.draft)
                               && InBounds(r.commit.value, p.min, p.max)
    // confirming closes the editor, keeps the draft and records the validation outcome
    ensures s.editing && IsConfirm(e) ==>
              r.next == State(false, s.draft, Validate(s.draft, p, s.error).error)
    // Escape closes the editor, restores the value's text, clears the error
    ensures s.editing && e == KeyDown(Escape) ==> r.next == State(false, ValueText(p), None)
    // typing replaces the draft; clearing the input clears the error
    ensures s.editing && e.Change? ==> r.next.editing && r.next.draft == e.text
    ensures s.editing && e == Change("") ==> r.next.error.None?
    ensures s.editing && e.Change? && e.text != "" ==> r.next.error == Validate(e.text, p, s.error).error
    ensures !s.editing && e == DoubleClick ==> r.next == s.(editing := true)
    ensures e == ValueSync ==> r.next == s.(draft := ValueText(p))
    ensures e == KeyDown(OtherKey) || (s.editing && e == DoubleClick) ==> r.next == s
    ensures !s.editing && e != DoubleClick && e != ValueSync ==> r.next == s
  {
    match e
    case ValueSync => Reaction(s.(draft := ValueText(p)), None)
    case DoubleClick => Reaction(s.(editing := true), None)
    case Change(text) =>
      if !s.editing then Reaction(s, None)
      else if text == "" then Reaction(State(true, text, None), None)
      else Reaction(State(true, text, Validate(text, p, s.error).error), None)
    case Blur => Confirm(s, p)
    case KeyDown(k) =>
      if !s.editing then Reaction(s, None)
      else if k == Enter then Confirm(s, p)
      else if k == Escape then Reaction(State(false, ValueText(p), None), None)
      else Reaction(s, None)
  }

  function Confirm(s: State, p: Props): Reaction<State, real> {
    if !s.editing then Reaction(s, None)
    else
      var v := Validate(s.draft, p, s.error);
      Reaction(State(false, s.draft, v.error),
               if v.number.Some? && v.number != p.value then v.number else None)
  }

  /** What the display box shows: the value's text, else the placeholder, else "-". */
  function Display(p: Props): (text: string)
    ensures p.value.Some? && p.numerals.show(p.value.value) != "" ==> text == p.numerals.show(p.value.value)
    ensures p.value.None? && Truthy(p.placeholder) ==> text == p.placeholder.value
    ensures p.value.None? && !Truthy(p.placeholder) ==> text == "-"
    ensures text != ""
  {
    OrElse(if p.value.Some? then Some(p.numerals.show(p.value.value)) else None, OrElse(p.placeholder, "-"))
  }

  function Stepper(p: Props): (State, Event) -> Reaction<State, real> {
    (s, e) => Step(s, e, p)
  }

  /** Over any run of events every commit lies within the bounds, differs
      from the value, and is the parse of some text the user typed or the
      draft the run started with. */
  lemma {:induction false} CommitsInBounds(p: Props, s: State, events: seq<Event>)
    ensures forall c :: c in Run(Stepper(p), s, events).commits ==>
              InBounds(c, p.min, p.max) && Some(c) != p.value
    ensures forall c :: c in Run(Stepper(p), s, events).commits ==>
              Some(c) == p.numerals.parse(s.draft) || Some(c) == p.numerals.parse(ValueText(p))
              || exists i :: 0 <= i < |events| && events[i].Change? && Some(c) == p.numerals.parse(events[i].text)
    decreases |events|
  {
    if |events| > 0 {
      var r := Step(s, events[0], p);
      CommitsInBounds(p, r.next, events[1..]);
      var t := Run(Stepper(p), r.next, events[1..]);
      forall c | c in t.commits
        ensures Some(c) == p.numerals.parse(s.draft) || Some(c) == p.numerals.parse(ValueText(p))
                || exists i :: 0 <= i < |events| && events[i].Change? && Some(c) == p.numerals.parse(events[i].text)
      {
        if exists i :: 0 <= i < |events[1..]| && events[1..][i].Change? && Some(c) == p.numerals.parse(events[1..][i].text) {
          var i :| 0 <= i < |events[1..]| && events[1..][i].Change? && Some(c) == p.numerals.parse(events[1..][i].text);
          assert events[i + 1] == events[1..][i];
        } else if Some(c) == p.numerals.parse(r.next.draft) && r.next.draft != s.draft && r.next.draft != ValueText(p) {
          assert events[0].Change?;
        }
      }
    }
  }

  /** A draft outside the bounds is never committed, however it is confirmed,
      and the confirmation leaves the matching message behind. */
  lemma OutOfRangeNeverCommits(p: Props, s: State, e: Event)
    requires s.editing && IsConfirm(e)
    requires p.numerals.parse(s.draft).Some? && !InBounds(p.numerals.parse(s.draft).value, p.min, p.max)
    ensures Step(s, e, p).commit.None?
    ensures !Step(s, e, p).next.editing
    ensures Step(s, e, p).next.error.Some?
  {
  }

  /** An in-range number typed into the editor and confirmed is committed
      exactly once, unless it equals the value already held. */
  lemma InRangeCommitsOnce(p: Props, t: string, n: real, confirm: Event)
    requires IsConfirm(confirm)
    requires p.numerals.parse(t) == Some(n) && InBounds(n, p.min, p.max)
    ensures var tr := Run(Stepper(p), Init(p), [DoubleClick, Change(t), confirm]);
            && !tr.last.editing && tr.last.error.None?
            && (tr.commits == if Some(n) != p.value then [n] else [])
  {
    var f := Stepper(p);
    var s1 := State(true, ValueText(p), None);
    var s2 := Step(s1, Change(t), p).next;
    assert s2.draft == t && s2.editing && s2.error.None?;
    var s3 := State(false, t, None);
    assert f(s2, confirm) == Reaction(s3, if Some(n) != p.value then Some(n) else None);
    assert Run(f, s3, []) == Trace(s3, []);
    assert Run(f, s2, [confirm]) == Trace(s3, if Some(n) != p.value then [n] else []);
    assert f(s1, Change(t)) == Reaction(s2, None);
    assert [Change(t), confirm][1..] == [confirm];
    assert Run(f, s1, [Change(t), confirm]) == Run(f, s2, [confirm]);
    assert f(Init(p), DoubleClick) == Reaction(s1, None);
    assert [DoubleClick, Change(t), confirm][1..] == [Change(t), confirm];
  }
}

=== FILE: select_cell.dfy ===
/** The inline-editable select cell. The editor is a native select whose
    entries carry the options' values as strings; on confirmation the draft
    string is looked up among the options and the matching option's own
    value (never its label) is handed to `onEdit`. */
module SelectCell {
  import opened Wrappers
  import opened Js
  import opened Edit

  /** An option: its value and its label (`caption`, as `label` is reserved). */
  datatype SelectOption<V> = SelectOption(value: V, caption: string)

  /** `show` is the values' `toString`. */
  datatype Props<!V> = Props(
    value: Option<V>,
    options: seq<SelectOption<V>>,
    placeholder: Option<string>,
    isClearable: bool,
    show: V -> string)

  /** The draft is always a string: the value attribute of the chosen entry. */
  type State = EditState<string>

  /** `value?.toString()`. */
  function ValueText<V>(p: Props<V>): (t: Option<string>)
    ensures t.Some? <==> p.value.Some?
    ensures t.Some? ==> t.value == p.show(p.value.value)
  {
    if p.value.Some? then Some(p.show(p.value.value)) else None
  }

  /** The text the draft is reset to: `value?.toString() || ''`. */
  function ResetText<V>(p: Props<V>): (t: string)
    ensures p.value.Some? && p.show(p.value.value) != "" ==> Some(t) == ValueText(p)
    ensures p.value.None? || p.show(p.value.value) == "" ==> t == ""
  {
    OrElse(ValueText(p), "")
  }

  /** The settled cell: closed, with the value's text as draft. The value
      effect leaves it as it is, and opening and escaping comes back to it. */
  function Init<V>(p: Props<V>): (s: State)
    ensures !s.editing && s.draft == ResetText(p)
    ensures Step(s, ValueSync, p) == Reaction(s, None)
    ensures Step(Step(s, DoubleClick, p).next, KeyDown(Escape), p) == Reaction(s, None)
  {
    EditState(false, ResetText(p))
  }

  /** The position of the first option whose value prints as `text`. */
  function MatchIndex<V>(p: Props<V>, text: string): (r: Option<nat>)
    ensures r.Some? ==> r.value < |p.options| && p.show(p.options[r.value].value) == text
    ensures r.Some? ==> forall j :: 0 <= j < r.value ==> p.show(p.options[j].value) != text
    ensures r.None? <==> forall j :: 0 <= j < |p.options| ==> p.show(p.options[j].value) != text
  {
    FindIndex(p.options, (o: SelectOption<V>) => p.show(o.value) == text)
  }

  /** One event, with the handlers attached as in the display box and select. */
  function Step<V>(s: State, e: Event, p: Props<V>): (r: Reaction<State, V>)
    // a commit fires iff an open editor is confirmed with a draft that differs
    // from the value's text and names some option
    ensures r.commit.Some? <==>
              s.editing && IsConfirm(e) && Some(s.draft) != ValueText(p) && MatchIndex(p, s.draft).Some?
    // and it is the value of the first option whose value prints as the draft
    ensures r.commit.Some? ==> r.commit.value == p.options[MatchIndex(p, s.draft).value].value
    ensures s.editing && IsConfirm(e) ==> r.next == EditState(false, s.draft)
    ensures s.editing && e == KeyDown(Escape) ==> r.next == EditState(false, ResetText(p))
    ensures s.editing && e.Change? ==> r.next == EditState(true, e.text)
    ensures !s.editing && e == DoubleClick ==> r.next == EditState(true, s.draft)
    ensures e == ValueSync ==> r.next == EditState(s.editing, ResetText(p))
    ensures e == KeyDown(OtherKey) || (s.editing && e == DoubleClick) ==> r.next == s
    ensures !s.editing && e != DoubleClick && e != ValueSync ==> r.next == s
  {
    match e
    case ValueSync => Reaction(s.(draft := ResetText(p)), None)
    case DoubleClick => Reaction(s.(editing := true), None)
    case Change(text) =>
      if s.editing then Reaction(s.(draft := text), None) else Reaction(s, None)
    case Blur => Confirm(s, p)
    case KeyDown(k) =>
      if !s.editing then Reaction(s, None)
      else if k == Enter then Confirm(s, p)
      else if k == Escape then Reaction(EditState(false, ResetText(p)), None)
      else Reaction(s, None)
  }

  function Confirm<V>(s: State, p: Props<V>): Reaction<State, V> {
    if !s.editing then Reaction(s, None)
    else if Some(s.draft) == ValueText(p) then Reaction(s.(editing := false), None)
    else
      match MatchIndex(p, s.draft)
      case None => Reaction(s.(editing := false), None)
      case Some(i) => Reaction(s.(editing := false), Some(p.options[i].value))
  }

  /** An entry of the editor: the value attribute and the visible text. */
  datatype Entry = Entry(value: string, caption: string)

  /** The entries the editor offers, in order: the select component's own
      empty entry showing the placeholder, when the placeholder is truthy
      (the component library adds it, not the cell); the cell's empty
      "clear" entry, when the cell is clearable; then one entry per option. */
  function Entries<V>(p: Props<V>): (es: seq<Entry>)
    ensures var lead := (if Truthy(p.placeholder) then 1 else 0) + (if p.isClearable then 1 else 0);
            && |es| == lead + |p.options|
            && (forall i :: 0 <= i < lead ==> es[i].value == "")
            && (forall i :: 0 <= i < |p.options| ==>
                  es[lead + i] == Entry(p.show(p.options[i].value), p.options[i].caption))
    ensures Truthy(p.placeholder) ==> es[0] == Entry("", p.placeholder.value)
    ensures p.isClearable ==>
              es[if Truthy(p.placeholder) then 1 else 0] == Entry("", OrElse(p.placeholder, "Select..."))
  {
    (if Truthy(p.placeholder) then [Entry("", p.placeholder.value)] else [])
    + (if p.isClearable then [Entry("", OrElse(p.placeholder, "Select..."))] else [])
    + seq(|p.options|, i requires 0 <= i < |p.options| => Entry(p.show(p.options[i].value), p.options[i].caption))
  }

  /** Whatever entry of the editor is chosen, confirming it commits the value
      of an option or nothing: the empty entries commit only when some
      option prints as the empty string. */
  lemma EveryEntryCommitsAnOptionOrNothing<V>(p: Props<V>, k: nat, confirm: Event)
    requires k < |Entries(p)| && IsConfirm(confirm)
    ensures var r := Step(EditState(true, Entries(p)[k].value), confirm, p);
            r.commit.Some? ==> exists i :: 0 <= i < |p.options| && p.options[i].value == r.commit.value
                                          && p.show(p.options[i].value) == Entries(p)[k].value
  {
    var r := Step(EditState(true, Entries(p)[k].value), confirm, p);
    if r.commit.Some? {
      var i := MatchIndex(p, Entries(p)[k].value).value;
      assert p.options[i].value == r.commit.value;
    }
  }

  /** What the display box shows: the label of the option whose value is the
      value, else the value's text, else the placeholder, else "-". */
  function Display<V(==)>(p: Props<V>): (text: string)
    ensures var o := Find(p.options, (o: SelectOption<V>) => Some(o.value) == p.value);
            && (o.Some? && o.value.caption != "" ==> text == o.value.caption)
            && (o.None? || o.value.caption == "" ==> text == OrElse(ValueText(p), OrElse(p.placeholder, "-")))
    ensures text != ""
  {
    var o := Find(p.options, (o: SelectOption<V>) => Some(o.value) == p.value);
    OrElse(if o.Some? then Some(o.value.caption) else None, OrElse(ValueText(p), OrElse(p.placeholder, "-")))
  }

  function Stepper<V>(p: Props<V>): (State, Event) -> Reaction<State, V> {
    (s, e) => Step(s, e, p)
  }

  /** Over any run of events, whatever the user picks, every commit is the
      value of one of the options and differs from the value held. */
  lemma {:induction false} CommitsAreOptionValues<V>(p: Props<V>, s: State, events: seq<Event>)
    ensures forall c :: c in Run(Stepper(p), s, events).commits ==>
              (exists i :: 0 <= i < |p.options| && p.options[i].value == c) && Some(c) != p.value
    decreases |events|
  {
    if |events| > 0 {
      var r := Step(s, events[0], p);
      CommitsAreOptionValues(p, r.next, events[1..]);
      if r.commit.Some? {
        var i := MatchIndex(p, s.draft).value;
        assert p.options[i].value == r.commit.value;
      }
    }
  }

  /** Choosing the empty "clear" entry never commits when no option's value
      prints as the empty string. */
  lemma ClearingNeverCommits<V>(p: Props<V>, s: State, e: Event)
    requires forall j :: 0 <= j < |p.options| ==> p.show(p.options[j].value) != ""
    requires s.editing && s.draft == ""
    ensures Step(s, e, p).commit.None?
  {
  }
}

=== FILE: status_badge.dfy ===
/** The status badge: shows an option's label in the option's colours, or a
    bare value, or "Unknown" when there is neither. */
module StatusBadge {
  import opened Wrappers
  import opened Js

  /** A status option: value, label (`caption`), text colour and background. */
  datatype StatusOption = StatusOption(
    value: string,
    caption: string,
    color: Option<string>,
    bgColor: Option<string>)

  /** The three shapes a badge takes. */
  datatype Badge =
    | Unknown
    | OptionBadge(text: string, color: Option<string>, background: string)
    | ValueBadge(text: string)

  /** The badge for an optional option and an optional raw value; the option
      takes priority, and a missing background falls back to "transparent". */
  function Render(statusOption: Option<StatusOption>, value: Option<string>): (b: Badge)
    ensures b == Unknown <==> statusOption.None? && !Truthy(value)
    ensures statusOption.Some? ==> b.OptionBadge? && b.text == statusOption.value.caption
                                   && b.color == statusOption.value.color
    ensures statusOption.Some? && Truthy(statusOption.value.bgColor) ==> b.background == statusOption.value.bgColor.value
    ensures statusOption.Some? && !Truthy(statusOption.value.bgColor) ==> b.background == "transparent"
    ensures statusOption.None? && Truthy(value) ==> b == ValueBadge(value.value)
  {
    if statusOption.None? && !Truthy(value) then Unknown
    else if statusOption.Some? then
      var o := statusOption.value;
      OptionBadge(o.caption, o.color, OrElse(o.bgColor, "transparent"))
    else ValueBadge(value.value)
  }

  /** The text a badge shows. */
  function Text(b: Badge): string {
    match b
    case Unknown => "Unknown"
    case OptionBadge(t, _, _) => t
    case ValueBadge(t) => t
  }

  /** What the badge reads: the option's label when there is an option,
      else `value || "Unknown"`. */
  lemma RenderedText(statusOption: Option<StatusOption>, value: Option<string>)
    ensures statusOption.Some? ==> Text(Render(statusOption, value)) == statusOption.value.caption
    ensures statusOption.None? ==> Text(Render(statusOption, value)) == OrElse(value, "Unknown")
  {
  }
}

=== FILE: status_cell.dfy ===
/** The inline-editable status cell: shows the badge of the option whose
    value is the value, and edits through a select over the options'
    values, committing the chosen value when it differs. */
module StatusCell {
  import opened Wrappers
  import opened Edit
  import StatusBadge
  import Js

  /** Status values are strings, as the select's draft is. */
  datatype Props = Props(value: Option<string>, options: seq<StatusBadge.StatusOption>)

  /** The draft starts out as the value itself (possibly `undefined`). */
  type State = EditState<Option<string>>

  /** The settled cell: closed, with the value as draft. The value effect
      leaves it as it is, opening and escaping comes back to it, and opening
      and confirming at once commits nothing. */
  function Init(p: Props): (s: State)
    ensures !s.editing && s.draft == p.value
    ensures Step(s, ValueSync, p) == Reaction(s, None)
    ensures Step(Step(s, DoubleClick, p).next, KeyDown(Escape), p) == Reaction(s, None)
    ensures Step(Step(s, DoubleClick, p).next, KeyDown(Enter), p).commit.None?
  {
    EditState(false, p.value)
  }

  /** One event, with the handlers attached as in the display box and select. */
  function Step(s: State, e: Event, p: Props): (r: Reaction<State, Option<string>>)
    ensures r.commit.Some? <==> s.editing && IsConfirm(e) && s.draft != p.value
    ensures r.commit.Some? ==> r.commit.value == s.draft
    ensures s.editing && IsConfirm(e) ==> r.next == EditState(false, s.draft)
    ensures s.editing && e == KeyDown(Escape) ==> r.next == EditState(false, p.value)
    ensures s.editing && e.Change? ==> r.next == EditState(true, Some(e.text))
    ensures !s.editing && e == DoubleClick ==> r.next == EditState(true, s.draft)
    ensures e == ValueSync ==> r.next == EditState(s.editing, p.value)
    ensures e == KeyDown(OtherKey) || (s.editing && e == DoubleClick) ==> r.next == s
    ensures !s.editing && e != DoubleClick && e != ValueSync ==> r.next == s
  {
    match e
    case ValueSync => Reaction(s.(draft := p.value), None)
    case DoubleClick => Reaction(s.(editing := true), None)
    case Change(text) =>
      if s.editing then Reaction(s.(draft := Some(text)), None) else Reaction(s, None)
    case Blur => Confirm(s, p)
    case KeyDown(k) =>
      if !s.editing then Reaction(s, None)
      else if k == Enter then Confirm(s, p)
      else if k == Escape then Reaction(EditState(false, p.value), None)
      else Reaction(s, None)
  }

  function Confirm(s: State, p: Props): Reaction<State, Option<string>> {
    if !s.editing then Reaction(s, None)
    else Reaction(s.(editing := false), if s.draft != p.value then Some(s.draft) else None)
  }

  /** The option whose value is the value, looked up with strict equality. */
  function Selected(p: Props): (o: Option<StatusBadge.StatusOption>)
    ensures o.Some? <==> exists i :: 0 <= i < |p.options| && Some(p.options[i].value) == p.value
    ensures o.Some? ==> exists i :: 0 <= i < |p.options| && p.options[i] == o.value && Some(o.value.value) == p.value
                                    && forall j :: 0 <= j < i ==> Some(p.options[j].value) != p.value
  {
    Js.Find(p.options, (o: StatusBadge.StatusOption) => Some(o.value) == p.value)
  }

  /** What the display box holds: a badge iff some option's value is the
      value, and then the badge of the first such option. */
  function Display(p: Props): (b: Option<StatusBadge.Badge>)
    ensures b.Some? <==> exists i :: 0 <= i < |p.options| && Some(p.options[i].value) == p.value
    ensures b.Some? ==> exists i :: 0 <= i < |p.options| && Some(p.options[i].value) == p.value
                                   && b.value == StatusBadge.Render(Some(p.options[i]), None)
                                   && StatusBadge.Text(b.value) == p.options[i].caption
  {
    match Selected(p)
    case None => None
    case Some(o) => Some(StatusBadge.Render(Some(o), None))
  }

  /** The select only offers the options' values: a change event is
      well-formed iff it picks one of them. */
  predicate Offered(p: Props, e: Event) {
    e.Change? ==> exists i :: 0 <= i < |p.options| && p.options[i].value == e.text
  }

  /** The draft is the value or one of the options' values. */
  predicate DraftFromOptions(p: Props, s: State) {
    s.draft == p.value || exists i :: 0 <= i < |p.options| && Some(p.options[i].value) == s.draft
  }

  function Stepper(p: Props): (State, Event) -> Reaction<State, Option<string>> {
    (s, e) => Step(s, e, p)
  }

  /** Starting from a draft that is the value or an option, and picking only
      what the select offers, every commit is one of the options' values and
      differs from the value; the draft keeps that shape throughout. */
  lemma {:induction false} CommitsAreOptionValues(p: Props, s: State, events: seq<Event>)
    requires DraftFromOptions(p, s)
    requires forall i :: 0 <= i < |events| ==> Offered(p, events[i])
    ensures DraftFromOptions(p, Run(Stepper(p), s, events).last)
    ensures forall c :: c in Run(Stepper(p), s, events).commits ==>
              c != p.value && exists i :: 0 <= i < |p.options| && Some(p.options[i].value) == c
    decreases |events|
  {
    if |events| > 0 {
      var r := Step(s, events[0], p);
      assert Offered(p, events[0]);
      assert DraftFromOptions(p, r.next);
      assert forall i :: 0 <= i < |events[1..]| ==> Offered(p, events[1..][i]) by {
        forall i | 0 <= i < |events[1..]| ensures Offered(p, events[1..][i]) {
          assert events[1..][i] == events[i + 1];
        }
      }
      CommitsAreOptionValues(p, r.next, events[1..]);
    }
  }
}

=== FILE: table_instance.dfy ===
/** The table-state adapter: owns the seven UI state slices, gives them
    their initial values, resolves each change handler's updater against the
    current slice, and hands the resolved value both to local state and to
    the caller's optional listener. It also fixes the feature-flag defaults
    passed to the table engine. */
module TableInstance {
  import opened Wrappers

  datatype SortEntry = SortEntry(id: string, desc: bool)
  datatype ColumnFilter = ColumnFilter(id: string, value: string)
  datatype Pagination = Pagination(pageIndex: int, pageSize: int)

  /** The UI state snapshot: exactly the seven slices. */
  datatype UiState = UiState(
    sorting: seq<SortEntry>,
    columnFilters: seq<ColumnFilter>,
    columnVisibility: map<string, bool>,
    rowSelection: map<string, bool>,
    expanded: map<string, bool>,
    pagination: Pagination,
    globalFilter: string)

  /** `options.pageSize || 10`. */
  function InitialPageSize(pageSize: Option<int>): (n: int)
    ensures pageSize.Some? && pageSize.value != 0 ==> n == pageSize.value
    ensures pageSize.None? || pageSize.value == 0 ==> n == 10
  {
    if pageSize.Some? && pageSize.value != 0 then pageSize.value else 10
  }

  /** The state on mount: everything empty, first page. */
  function Initial(pageSize: Option<int>): (s: UiState)
    ensures s.sorting == [] && s.columnFilters == []
    ensures s.columnVisibility == map[] && s.rowSelection == map[] && s.expanded == map[]
    ensures s.globalFilter == ""
    ensures s.pagination.pageIndex == 0
    ensures s.pagination.pageSize == InitialPageSize(pageSize)
  {
    UiState([], [], map[], map[], map[], Pagination(0, InitialPageSize(pageSize)), "")
  }

  /** What a change handler receives: a function of the current slice, or a
      replacement value. */
  datatype Updater<!T> = Apply(f: T -> T) | Replace(v: T)

  /** The slice value an updater produces from the current one. */
  function Resolve<T>(u: Updater<T>, current: T): (r: T)
    ensures u.Apply? ==> r == u.f(current)
    ensures u.Replace? ==> r == u.v
  {
    match u
    case Apply(f) => f(current)
    case Replace(v) => v
  }

  /** The seven slices, naming the handlers `on<Slice>Change`. */
  datatype Slice = Sorting | ColumnFilters | ColumnVisibility | RowSelection | Expanded | PaginationSlice | GlobalFilter

  /** A call of one of the seven change handlers. */
  datatype Change =
    | SortingChange(sorting: Updater<seq<SortEntry>>)
    | ColumnFiltersChange(filters: Updater<seq<ColumnFilter>>)
    | ColumnVisibilityChange(visibility: Updater<map<string, bool>>)
    | RowSelectionChange(selection: Updater<map<string, bool>>)
    | ExpandedChange(expanded: Updater<map<string, bool>>)
    | PaginationChange(pagination: Updater<Pagination>)
    | GlobalFilterChange(filter: Updater<string>)

  function SliceOf(c: Change): Slice {
    match c
    case SortingChange(_) => Sorting
    case ColumnFiltersChange(_) => ColumnFilters
    case ColumnVisibilityChange(_) => ColumnVisibility
    case RowSelectionChange(_) => RowSelection
    case ExpandedChange(_) => Expanded
    case PaginationChange(_) => PaginationSlice
    case GlobalFilterChange(_) => GlobalFilter
  }

  /** The value a listener receives, tagged with its slice. */
  datatype Notice =
    | SortingNotice(sorting: seq<SortEntry>)
    | ColumnFiltersNotice(filters: seq<ColumnFilter>)
    | ColumnVisibilityNotice(visibility: map<string, bool>)
    | RowSelectionNotice(selection: map<string, bool>)
    | ExpandedNotice(expanded: map<string, bool>)
    | PaginationNotice(pagination: Pagination)
    | GlobalFilterNotice(filter: string)

  /** The notice carrying slice `k` of state `s`. */
  function Snapshot(s: UiState, k: Slice): Notice {
    match k
    case Sorting => SortingNotice(s.sorting)
    case ColumnFilters => ColumnFiltersNotice(s.columnFilters)
    case ColumnVisibility => ColumnVisibilityNotice(s.columnVisibility)
    case RowSelection => RowSelectionNotice(s.rowSelection)
    case Expanded => ExpandedNotice(s.expanded)
    case PaginationSlice => PaginationNotice(s.pagination)
    case GlobalFilter => GlobalFilterNotice(s.globalFilter)
  }

  /** `a` and `b` agree on every slice except possibly `k`. */
  predicate AgreeExcept(a: UiState, b: UiState, k: Slice) {
    forall j :: j != k ==> Snapshot(a, j) == Snapshot(b, j)
  }

  /** The slice a change resolves to, given the current state. */
  function Resolved(s: UiState, c: Change): Notice {
    match c
    case SortingChange(u) => SortingNotice(Resolve(u, s.sorting))
    case ColumnFiltersChange(u) => ColumnFiltersNotice(Resolve(u, s.columnFilters))
    case ColumnVisibilityChange(u) => ColumnVisibilityNotice(Resolve(u, s.columnVisibility))
    case RowSelectionChange(u) => RowSelectionNotice(Resolve(u, s.rowSelection))
    case ExpandedChange(u) => ExpandedNotice(Resolve(u, s.expanded))
    case PaginationChange(u) => PaginationNotice(Resolve(u, s.pagination))
    case GlobalFilterChange(u) => GlobalFilterNotice(Resolve(u, s.globalFilter))
  }

  /** The outcome of a change handler: the new local state and, if the caller
      listens to that slice, what the listener receives. */
  datatype Dispatched = Dispatched(next: UiState, notice: Option<Notice>)

  /** One change handler call, as React runs it: the updater is resolved
      against the slice captured at the last render (`rendered`), and the
      result is stored with a plain setter over the current state `s`. When
      a render separates the calls, `rendered` is `s`; two calls inside one
      batch both see the same `rendered`. `listeners` are the slices the
      caller passed an `on<Slice>Change` listener for. */
  function DispatchFrom(rendered: UiState, s: UiState, c: Change, listeners: set<Slice>): (d: Dispatched)
    // only the handler's own slice changes, to the value resolved against the render
    ensures AgreeExcept(s, d.next, SliceOf(c))
    ensures Snapshot(d.next, SliceOf(c)) == Resolved(rendered, c)
    // the listener, when there is one, receives the very value stored locally
    ensures d.notice.Some? <==> SliceOf(c) in listeners
    ensures d.notice.Some? ==> d.notice.value == Snapshot(d.next, SliceOf(c))
  {
    var next :=
      match c
      case SortingChange(u) => s.(sorting := Resolve(u, rendered.sorting))
      case ColumnFiltersChange(u) => s.(columnFilters := Resolve(u, rendered.columnFilters))
      case ColumnVisibilityChange(u) => s.(columnVisibility := Resolve(u, rendered.columnVisibility))
      case RowSelectionChange(u) => s.(rowSelection := Resolve(u, rendered.rowSelection))
      case ExpandedChange(u) => s.(expanded := Resolve(u, rendered.expanded))
      case PaginationChange(u) => s.(pagination := Resolve(u, rendered.pagination))
      case GlobalFilterChange(u) => s.(globalFilter := Resolve(u, rendered.globalFilter));
    Dispatched(next, if SliceOf(c) in listeners then Some(Snapshot(next, SliceOf(c))) else None)
  }

  /** One change handler call with a render before it. */
  function Dispatch(s: UiState, c: Change, listeners: set<Slice>): (d: Dispatched)
    // only the handler's own slice changes, to the resolved value
    ensures AgreeExcept(s, d.next, SliceOf(c))
    ensures Snapshot(d.next, SliceOf(c)) == Resolved(s, c)
    // the listener, when there is one, receives the very value stored locally
    ensures d.notice.Some? <==> SliceOf(c) in listeners
    ensures d.notice.Some? ==> d.notice.value == Snapshot(d.next, SliceOf(c))
  {
    DispatchFrom(s, s, c, listeners)
  }

  /** With a render between them, two function updates to a slice compose:
      the second sees the first one's result. */
  lemma RenderedUpdatesCompose(s: UiState, f: seq<SortEntry> -> seq<SortEntry>, g: seq<SortEntry> -> seq<SortEntry>,
                               listeners: set<Slice>)
    ensures Dispatch(Dispatch(s, SortingChange(Apply(f)), listeners).next, SortingChange(Apply(g)), listeners).next
         == Dispatch(s, SortingChange(Apply(x => g(f(x)))), listeners).next
  {
  }

  /** Inside one batch, the second function update to a slice overwrites the
      first: both are resolved against the slice of the last render. */
  lemma BatchedUpdateIsLost(s: UiState, f: seq<SortEntry> -> seq<SortEntry>, g: seq<SortEntry> -> seq<SortEntry>,
                            listeners: set<Slice>)
    ensures var first := DispatchFrom(s, s, SortingChange(Apply(f)), listeners);
            var second := DispatchFrom(s, first.next, SortingChange(Apply(g)), listeners);
            second.next == Dispatch(s, SortingChange(Apply(g)), listeners).next
            && (second.notice.Some? ==> second.notice.value == SortingNotice(g(s.sorting)))
  {
  }

  /** The slice a notice belongs to. */
  function NoticeSlice(n: Notice): Slice {
    match n
    case SortingNotice(_) => Sorting
    case ColumnFiltersNotice(_) => ColumnFilters
    case ColumnVisibilityNotice(_) => ColumnVisibility
    case RowSelectionNotice(_) => RowSelection
    case ExpandedNotice(_) => Expanded
    case PaginationNotice(_) => PaginationSlice
    case GlobalFilterNotice(_) => GlobalFilter
  }

  /** The state after a run of handler calls and the notices the listeners
      received, in order. Each call is taken to follow a render, as when the
      calls come from separate user events. */
  datatype Replayed = Replayed(last: UiState, notices: seq<Notice>)

  function Replay(s: UiState, cs: seq<Change>, listeners: set<Slice>): (r: Replayed)
    ensures |r.notices| <= |cs|
    decreases |cs|
  {
    if |cs| == 0 then Replayed(s, [])
    else
      var r := Replay(s, cs[..|cs| - 1], listeners);
      var d := Dispatch(r.last, cs[|cs| - 1], listeners);
      Replayed(d.next, r.notices + if d.notice.Some? then [d.notice.value] else [])
  }

  /** The most recent notice for slice `k`, if any. */
  function LastNotice(ns: seq<Notice>, k: Slice): Option<Notice>
    decreases |ns|
  {
    if |ns| == 0 then None
    else if NoticeSlice(ns[|ns| - 1]) == k then Some(ns[|ns| - 1])
    else LastNotice(ns[..|ns| - 1], k)
  }

  /** Whether some call in `cs` is to the handler of slice `k`. */
  predicate Changed(cs: seq<Change>, k: Slice) {
    exists i :: 0 <= i < |cs| && SliceOf(cs[i]) == k
  }

  lemma ChangedSnoc(cs: seq<Change>, k: Slice)
    requires |cs| > 0
    ensures Changed(cs, k) <==> Changed(cs[..|cs| - 1], k) || SliceOf(cs[|cs| - 1]) == k
  {
    var init := cs[..|cs| - 1];
    if Changed(cs, k) && SliceOf(cs[|cs| - 1]) != k {
      var i :| 0 <= i < |cs| && SliceOf(cs[i]) == k;
      assert init[i] == cs[i];
    }
    if Changed(init, k) {
      var i :| 0 <= i < |init| && SliceOf(init[i]) == k;
      assert cs[i] == init[i];
    }
  }

  lemma LastNoticeSnoc(ns: seq<Notice>, extra: seq<Notice>, k: Slice)
    requires |extra| <= 1
    ensures LastNotice(ns + extra, k) ==
              if |extra| == 1 && NoticeSlice(extra[0]) == k then Some(extra[0]) else LastNotice(ns, k)
  {
    if |extra| == 1 {
      assert (ns + extra)[..|ns + extra| - 1] == ns;
    } else {
      assert ns + extra == ns;
    }
  }

  /** A listener never falls out of step with local state: after any run of
      handler calls, the last value it received for its slice is the value
      held locally, and it received one iff that slice was changed at all
      (otherwise the slice still holds its starting value). */
  lemma {:induction false} ListenerInSync(s: UiState, cs: seq<Change>, listeners: set<Slice>, k: Slice)
    requires k in listeners
    ensures var r := Replay(s, cs, listeners);
            && (LastNotice(r.notices, k).Some? <==> Changed(cs, k))
            && (LastNotice(r.notices, k).Some? ==> LastNotice(r.notices, k) == Some(Snapshot(r.last, k)))
            && (LastNotice(r.notices, k).None? ==> Snapshot(r.last, k) == Snapshot(s, k))
    decreases |cs|
  {
    if |cs| > 0 {
      var init := cs[..|cs| - 1];
      ListenerInSync(s, init, listeners, k);
      ChangedSnoc(cs, k);
      var r := Replay(s, init, listeners);
      var c := cs[|cs| - 1];
      var d := Dispatch(r.last, c, listeners);
      var extra := if d.notice.Some? then [d.notice.value] else [];
      LastNoticeSnoc(r.notices, extra, k);
      if SliceOf(c) == k {
        assert NoticeSlice(Snapshot(d.next, k)) == k by { SnapshotSlice(d.next, k); }
      } else {
        assert Snapshot(d.next, k) == Snapshot(r.last, k);
        if d.notice.Some? {
          SnapshotSlice(d.next, SliceOf(c));
        }
      }
    }
  }

  lemma SnapshotSlice(s: UiState, k: Slice)
    ensures NoticeSlice(Snapshot(s, k)) == k
  {
  }

  /** Changes to two different slices commute: the handlers touch disjoint
      parts of the state. */
  lemma DistinctSlicesCommute(s: UiState, a: Change, b: Change, listeners: set<Slice>)
    requires SliceOf(a) != SliceOf(b)
    ensures Dispatch(Dispatch(s, a, listeners).next, b, listeners).next
         == Dispatch(Dispatch(s, b, listeners).next, a, listeners).next
  {
  }

  /** Every slice the state holds is reachable by its handler: replacing a
      slice with the value it already has changes nothing. */
  lemma ReplaceWithSameIsIdentity(s: UiState, k: Slice, listeners: set<Slice>)
    ensures var c := match k
              case Sorting => SortingChange(Replace(s.sorting))
              case ColumnFilters => ColumnFiltersChange(Replace(s.columnFilters))
              case ColumnVisibility => ColumnVisibilityChange(Replace(s.columnVisibility))
              case RowSelection => RowSelectionChange(Replace(s.rowSelection))
              case Expanded => ExpandedChange(Replace(s.expanded))
              case PaginationSlice => PaginationChange(Replace(s.pagination))
              case GlobalFilter => GlobalFilterChange(Replace(s.globalFilter));
            Dispatch(s, c, listeners).next == s
  {
  }

  /** The feature flags the caller may set; `None` is undefined or null. */
  datatype FeatureOptions = FeatureOptions(
    enableSorting: Option<bool>,
    enableMultiSort: Option<bool>,
    enableFiltering: Option<bool>,
    enableGlobalFilter: Option<bool>,
    enableColumnFilters: Option<bool>,
    enablePagination: Option<bool>,
    enableRowSelection: Option<bool>,
    enableMultiRowSelection: Option<bool>,
    enableRowExpansion: Option<bool>,
    enableColumnResizing: Option<bool>,
    enableVirtualization: Option<bool>)

  datatype Features = Features(
    sorting: bool,
    multiSort: bool,
    filtering: bool,
    globalFilter: bool,
    columnFilters: bool,
    pagination: bool,
    rowSelection: bool,
    multiRowSelection: bool,
    rowExpansion: bool,
    columnResizing: bool,
    virtualization: bool)

  /** The flags passed to the engine, each defaulted with `??`. */
  function ResolveFeatures(o: FeatureOptions): (f: Features)
    // sorting, filtering, global filter, column filters and pagination are on unless turned off
    ensures f.sorting == (o.enableSorting != Some(false))
    ensures f.filtering == (o.enableFiltering != Some(false))
    ensures f.globalFilter == (o.enableGlobalFilter != Some(false))
    ensures f.columnFilters == (o.enableColumnFilters != Some(false))
    ensures f.pagination == (o.enablePagination != Some(false))
    // the rest are off unless turned on
    ensures f.multiSort == (o.enableMultiSort == Some(true))
    ensures f.rowSelection == (o.enableRowSelection == Some(true))
    ensures f.multiRowSelection == (o.enableMultiRowSelection == Some(true))
    ensures f.rowExpansion == (o.enableRowExpansion == Some(true))
    ensures f.columnResizing == (o.enableColumnResizing == Some(true))
    ensures f.virtualization == (o.enableVirtualization == Some(true))
  {
    Features(
      o.enableSorting.GetOr(true),
      o.enableMultiSort.GetOr(false),
      o.enableFiltering.GetOr(true),
      o.enableGlobalFilter.GetOr(true),
      o.enableColumnFilters.GetOr(true),
      o.enablePagination.GetOr(true),
      o.enableRowSelection.GetOr(false),
      o.enableMultiRowSelection.GetOr(false),
      o.enableRowExpansion.GetOr(false),
      o.enableColumnResizing.GetOr(false),
      o.enableVirtualization.GetOr(false))
  }
}

=== FILE: text_cell.dfy ===
/** The inline-editable text cell: a display box that turns into an input on
    double-click and hands the draft to `onEdit` when it is confirmed with a
    changed value. */
module TextCell {
  import opened Wrappers
  import opened Js
  import opened Edit

  /** The props the cell reads. An absent `value` is `undefined`. */
  datatype Props = Props(value: Option<string>, placeholder: Option<string>)

  /** The draft starts out as the value itself (possibly `undefined`). */
  type State = EditState<Option<string>>

  /** The settled cell: closed, with the value as draft. The value effect
      leaves it as it is, opening and escaping comes back to it, and opening
      and confirming at once commits nothing. */
  function Init(p: Props): (s: State)
    ensures !s.editing && s.draft == p.value
    ensures Step(s, ValueSync, p) == Reaction(s, None)
    ensures Step(Step(s, DoubleClick, p).next, KeyDown(Escape), p) == Reaction(s, None)
    ensures Step(Step(s, DoubleClick, p).next, Blur, p).commit.None?
  {
    EditState(false, p.value)
  }

  /** One event. The display box has only the double-click handler; the input
      has the change, key and blur handlers; the value-sync effect always runs. */
  function Step(s: State, e: Event, p: Props): (r: Reaction<State, Option<string>>)
    // a commit fires iff an open editor is confirmed with a changed draft, and it is the draft
    ensures r.commit.Some? <==> s.editing && IsConfirm(e) && s.draft != p.value
    ensures r.commit.Some? ==> r.commit.value == s.draft
    // confirming always closes the editor and keeps the draft
    ensures s.editing && IsConfirm(e) ==> r.next == EditState(false, s.draft)
    // Escape closes the editor and restores the value
    ensures s.editing && e == KeyDown(Escape) ==> r.next == EditState(false, p.value)
    // typing replaces the draft
    ensures s.editing && e.Change? ==> r.next == EditState(true, Some(e.text))
    ensures !s.editing && e == DoubleClick ==> r.next == EditState(true, s.draft)
    ensures e == ValueSync ==> r.next == EditState(s.editing, p.value)
    // everything else is ignored
    ensures e == KeyDown(OtherKey) || (s.editing && e == DoubleClick) ==> r.next == s
    ensures !s.editing && e != DoubleClick && e != ValueSync ==> r.next == s
  {
    match e
    case ValueSync => Reaction(s.(draft := p.value), None)
    case DoubleClick =>
      if s.editing then Reaction(s, None) else Reaction(s.(editing := true), None)
    case Change(text) =>
      if s.editing then Reaction(s.(draft := Some(text)), None) else Reaction(s, None)
    case Blur => Confirm(s, p)
    case KeyDown(k) =>
      if !s.editing then Reaction(s, None)
      else if k == Enter then Confirm(s, p)
      else if k == Escape then Reaction(EditState(false, p.value), None)
      else Reaction(s, None)
  }

  function Confirm(s: State, p: Props): Reaction<State, Option<string>> {
    if !s.editing then Reaction(s, None)
    else Reaction(s.(editing := false), if s.draft != p.value then Some(s.draft) else None)
  }

  /** What the display box shows: the value, else the placeholder, else "-". */
  function Display(p: Props): (text: string)
    ensures Truthy(p.value) ==> text == p.value.value
    ensures !Truthy(p.value) && Truthy(p.placeholder) ==> text == p.placeholder.value
    ensures !Truthy(p.value) && !Truthy(p.placeholder) ==> text == "-"
    ensures text != ""
  {
    OrElse(p.value, OrElse(p.placeholder, "-"))
  }

  function Stepper(p: Props): (State, Event) -> Reaction<State, Option<string>> {
    (s, e) => Step(s, e, p)
  }

  /** Over any run of events, every commit is a draft different from the
      committed value, and there are no more commits than confirmations. */
  lemma {:induction false} CommitsDiffer(p: Props, s: State, events: seq<Event>)
    ensures forall c :: c in Run(Stepper(p), s, events).commits ==> c != p.value
    ensures |Run(Stepper(p), s, events).commits| <= Confirmations(events)
    decreases |events|
  {
    if |events| > 0 {
      var r := Step(s, events[0], p);
      CommitsDiffer(p, r.next, events[1..]);
    }
  }

  /** Double-click followed by Escape from a settled display box is a round
      trip: nothing is committed and the cell is back where it started. */
  lemma OpenThenEscapeIsIdentity(p: Props)
    ensures Run(Stepper(p), Init(p), [DoubleClick, KeyDown(Escape)]) == Trace(Init(p), [])
  {
    var s1 := Step(Init(p), DoubleClick, p).next;
    assert Run(Stepper(p), s1, [KeyDown(Escape)]) == Trace(Init(p), []) by {
      assert Run(Stepper(p), Init(p), []) == Trace(Init(p), []);
    }
    assert [DoubleClick, KeyDown(Escape)][1..] == [KeyDown(Escape)];
  }

  /** An edit abandoned with Escape leaves no trace: whatever follows it
      behaves as if the cell had never been opened. */
  lemma {:induction false} EscapedEditIsForgotten(p: Props, rest: seq<Event>)
    ensures Run(Stepper(p), Init(p), [DoubleClick, KeyDown(Escape)] + rest) == Run(Stepper(p), Init(p), rest)
  {
    RunAppend(Stepper(p), Init(p), [DoubleClick, KeyDown(Escape)], rest);
    OpenThenEscapeIsIdentity(p);
  }

  /** Opening the editor, typing `t` and confirming commits `t` exactly once
      iff it differs from the value; the cell then shows the display box. */
  lemma TypeAndConfirm(p: Props, t: string, confirm: Event)
    requires IsConfirm(confirm)
    ensures var tr := Run(Stepper(p), Init(p), [DoubleClick, Change(t), confirm]);
            && !tr.last.editing
            && (tr.commits == if Some(t) != p.value then [Some(t)] else [])
  {
    var f := Stepper(p);
    var s1 := EditState(true, p.value);
    var s2 := EditState(true, Some(t));
    var s3 := EditState(false, Some(t));
    assert f(s2, confirm) == Reaction(s3, if Some(t) != p.value then Some(Some(t)) else None);
    assert Run(f, s3, []) == Trace(s3, []);
    assert Run(f, s2, [confirm]) == Trace(s3, if Some(t) != p.value then [Some(t)] else []);
    assert f(s1, Change(t)) == Reaction(s2, None);
    assert [Change(t), confirm][1..] == [confirm];
    assert Run(f, s1, [Change(t), confirm]) == Run(f, s2, [confirm]);
    assert f(Init(p), DoubleClick) == Reaction(s1, None);
    assert [DoubleClick, Change(t), confirm][1..] == [Change(t), confirm];
  }
}

=== FILE: wrappers.dfy ===
/** The optional value used throughout the model for JavaScript's
    `undefined`/`null` versus a present value. */
module Wrappers {

  datatype Option<+T> = None | Some(value: T) {

    /** The value if present, else `default` (JavaScript's `??`). */
    function GetOr(default: T): T {
      match this
      case Some(v) => v
      case None => default
    }
  }
}
